=== FILE: README.md ===
# Window manager and interactive map, modelled in Dafny

This project models the two interactive parts of a static web site's
scripts as pure state machines and proves properties about them.

- **The window manager** (`window_manager.js`, class `WindowManager`) keeps
  an ordered collection of floating windows, a z-index counter starting at
  1000 and an id counter starting at 0, and remembers the active window.
  - `createWindow` allocates the next id and the next z-index. It applies
    the size and position defaults (800×600 at 50,50) and takes its title
    from the last path segment of the URL, falling back to "Window".
  - `focusWindow` raises a window with a fresh z-index and makes it active.
  - `minimizeWindow` hides a window. No operation shows it again, so a
    minimized window stays hidden until it is closed.
  - `maximizeWindow` fills the viewport, saving the previous rectangle only
    if none is saved yet. `restoreWindow` writes the saved rectangle back.
    `toggleMaximize` chooses between the two.
  - `closeWindow` drops the record and, if it was the active window, hands
    activity to the newest remaining window, or to none when no window
    remains.
  - Dragging (by the header) and resizing (from eight compass handles) are
    gestures that a document-level mouse move advances and a mouse up ends.
    Drags clamp left/top at 0. Resizes clamp width at 300 and height at 200.
- **The map viewer** (`logic.js`, `initInteractiveMaps` and
  `calculateStrictBounds`).
  - Navigation buttons are classified as page A, B, C or D from their icon,
    text and position classes.
  - A map belongs to group 01 to 04 (or 00) according to the section it sits
    in. A click opens `page/grpNN/pageX.html`.
  - The wheel zooms about the cursor in 5% steps within scale 1 to 3.
  - Pressing and dragging pans at 80% of the cursor offset.
  - A double click resets scale and translation.
  - The translation is always clamped to symmetric bounds. These are half
    the amount by which the scaled image overhangs the container, divided
    by the scale.

Modules, one per file:

| module | file | contents |
|---|---|---|
| `Options` | options.dfy | `Option` with `GetOr` (the `a \|\| default` idiom) |
| `PageTitle` | page_title.dfy | JavaScript's one-character `split`, its inverse `Join`, and the title rule |
| `Windows` | windows.dfy | window records, the manager state and its invariant `Valid`, and every `WindowManager` operation |
| `WindowEvents` | window_events.dfy | a user action as an event, runs of events, and cross-operation properties |
| `WindowHistory` | window_history.dfy | what survives any run of actions: closed windows stay closed, minimized windows stay minimized |
| `MapNav` | map_nav.dfy | button classification, group number, and page path with its parser |
| `PanZoom` | pan_zoom.dfy | the translation bounds and the per-map pan/zoom state machine, over `real` |

Modelling choices:

- **Window identity.** A window is identified by its counter value `n`.
  The element id `window-n` is a string built from it.
- **Operations that take a window.** They require the window to be in the
  collection (`Live`) and the manager to satisfy `Valid`. This is the
  invariant the constructor establishes and every operation keeps:
  - ids are strictly increasing in creation order and never exceed the id
    counter;
  - z-indices are distinct, above 1000 and not above the z counter;
  - the active window is live;
  - a maximized window has saved bounds;
  - a window is hidden exactly when it is minimized.
- **Closing a stale record.** `closeWindow` on a record whose element is
  already gone throws in `removeChild`. `Windows.Close` returns `None` in
  that case.
- **Measurements.** Every measurement the code takes from the page is an
  explicit parameter:
  - the bounding rectangle at a press or a maximize (`Rect`);
  - the container box and image sizes for the map (`Box`, `Image`);
  - cursor positions and wheel deltas.
- **Document-level handlers.** The mouse-move and mouse-up listeners that
  gestures attach to the document are modelled as manager-wide transitions.
  Every window in a gesture reacts to a move, and every gesture ends on an
  up.
- **Style lengths.** A style length is either a pixel count or the full
  viewport (`100vw`/`100vh`), which is what maximizing writes.

Three behaviours of the code are easy to miss when reading it; the model
follows the code as written:
- A double click on a map resets scale and translation but does not end a
  pan in progress (`PanZoom.DblClick`). A later mouse move pans again.
- Saved bounds are never cleared. After the first maximize, every later
  restore returns to that first rectangle
  (`WindowEvents.RestoreReturnsToFirstCapture`,
  `WindowEvents.SecondCycleRestoresFirstGeometry`).
- The factor 0.8, which the code comments as reducing movement sensitivity
  (logic.js:129), is not applied to the cursor's travel since the press. It
  is applied to the cursor's offset from the press point shifted by the
  translation at the press. So a press followed by a move that does not travel shrinks
  the translation to 80% (`PanZoom.PressThenMoveInPlace`). Between two
  moves of one pan, the translation does change by 80% of the travel
  (`PanZoom.PanIsDamped`).

## Model

| member | source | states |
|---|---|---|
| WindowEvents.InitValid | window_manager.js:52-57 | the empty manager (no windows, z counter 1000, id counter 0, no active window) satisfies the invariant |
| Windows.Create | window_manager.js:60-126 | keeps the invariant; appends exactly one record and keeps the old ones as a prefix; both counters go up by exactly one and the new window takes both new values as its id and z-index, so its id was never in use and its z-index is above every z-index ever handed out, closed windows included; the new window becomes active, is neither maximized nor minimized, has no saved bounds and no gesture; its title is the URL's title; each geometry option falls back to its default (800, 600, 50, 50) |
| PageTitle.Title | window_manager.js:306-309 | the title is never empty and contains no `/`; it is "Window" when the URL is empty or ends in `/`; otherwise it is the URL's final segment, preceded by `/` or by nothing |
| PageTitle.JoinSplit | window_manager.js:307 | the split loses nothing: joining the pieces with the separator gives back the URL |
| PageTitle.SplitLastPiece | window_manager.js:307-308 | the last piece of the split is the text after the last separator and holds no separator |
| Windows.Focus | window_manager.js:293-296 | keeps the invariant; the window gets the new top z-index, above every other window; no other record changes; it becomes active; the z counter goes up by exactly one and the id counter does not change |
| Windows.Minimize | window_manager.js:288-291 | the window becomes hidden and minimized; nothing else about it, no other record, and neither the counters nor the active window change |
| Windows.MaximizeRecord | window_manager.js:260-276 | the window becomes maximized and fills the viewport; the measured rectangle is saved only when nothing was saved, otherwise the saved bounds are kept |
| Windows.Maximize | window_manager.js:260-276 | keeps the invariant; the window changes as `MaximizeRecord` says; other records, counters and the active window are unchanged |
| Windows.RestoreRecord | window_manager.js:278-286 | clears the maximized flag; writes the saved bounds back as pixel geometry when there are any, else keeps the geometry; the saved bounds stay saved |
| Windows.Restore | window_manager.js:278-286 | keeps the invariant; the window changes as `RestoreRecord` says; other records, counters and the active window are unchanged |
| Windows.ToggleMaximize | window_manager.js:252-258 | flips the maximized flag: a maximized window is restored, any other is maximized |
| WindowEvents.MaximizeRestoreRoundTrip | window_manager.js:260-286 | on a window with no saved bounds whose geometry is its measured rectangle, maximize then restore returns the geometry and leaves that rectangle saved |
| WindowEvents.RestoreReturnsToFirstCapture | window_manager.js:261-269 | once bounds are saved, any later maximize (whatever it measures) followed by restore returns to the first saved rectangle |
| WindowEvents.SecondCycleRestoresFirstGeometry | window_manager.js:261-284 | on a fresh window, the second maximize/restore cycle lands on the rectangle measured by the first |
| WindowEvents.ToggleTwice | window_manager.js:252-258 | toggling twice from the normal state is maximize followed by restore |
| Windows.WithoutAt | window_manager.js:300 | with increasing ids, filtering out the id at position i removes exactly that position and keeps the rest in order |
| Windows.Close | window_manager.js:298-304 | fails exactly when the window is not in the collection; otherwise it keeps the invariant, removes exactly that window's position, and leaves the counters alone; an inactive close leaves the active window alone; closing the active window hands activity to the newest remaining window, or to none when no window remains |
| WindowEvents.CloseNewestActive | window_manager.js:298-304 | closing the active window when it is the newest makes the previously opened window active, or none when it was the only one |
| WindowEvents.CloseHandsActivityBack | window_manager.js:298-304 | three windows opened and then closed newest-first: activity goes 3, 2, 1, none |
| Windows.StartDrag | window_manager.js:166-174 | on a maximized window, nothing happens; otherwise the window's record changes only in entering a drag holding the cursor's offset inside the rectangle and taking the next z-index, the z counter goes up by one, and the window becomes active, above every other; in both cases the collection keeps its length, every other record is unchanged and the id counter is kept |
| Windows.StartResize | window_manager.js:196-208 | on a maximized window, nothing happens; otherwise the window's record changes only in entering a resize from that handle holding the press point and rectangle and taking the next z-index, the z counter goes up by one, and the window becomes active, above every other; in both cases the collection keeps its length, every other record is unchanged and the id counter is kept |
| Windows.ResizeRect | window_manager.js:210-239 | width is at least 300 and height at least 200; the left edge moves by the travel exactly for handles with `w`, the top edge exactly for handles with `n`; the width is the start width minus the travel for `w`, plus the travel for `e` without `w`, and unchanged otherwise, then raised to 300; the height likewise for `n`, `s` and 200 |
| Windows.MoveRecord | window_manager.js:176-184 | only the geometry changes; a window with no gesture is untouched; a dragged window keeps its size and gets non-negative pixel left/top; a resized window gets pixel width ≥ 300 and height ≥ 200 |
| Windows.MouseMove | window_manager.js:176-192 | keeps the invariant, counters and the active window; every record reacts as `MoveRecord` says |
| Windows.MouseUp | window_manager.js:186-190 | keeps the invariant, counters and the active window; every gesture ends and nothing else changes |
| WindowEvents.MovesAfterUpAreIgnored | window_manager.js:176-190 | once the mouse is up, further moves change nothing |
| WindowEvents.DragFollowsCursor | window_manager.js:166-184 | a window grabbed at a point and dragged moves by the cursor's travel, clamped at 0, and keeps its size |
| WindowEvents.DragMoves | window_manager.js:176-184 | a mouse move on a window in a drag puts its corner at the grab corner plus the cursor's travel, clamped at 0, and changes nothing else of its style |
| WindowEvents.DragMoveRecord | window_manager.js:179-183 | a dragged record moved by the cursor's travel has its corner at the grab corner plus the travel, clamped at 0, and keeps its size |
| WindowEvents.ResizeFollowsCursor | window_manager.js:196-239 | a window pressed on a resize handle and moved takes, as pixels, exactly the rectangle `ResizeRect` gives for the handle, the rectangle measured at the press and the cursor's travel |
| WindowEvents.ResizeMoves | window_manager.js:210-239 | a mouse move on a window in a resize gives it, as pixels, the `ResizeRect` of its handle and start rectangle for the travel since the press |
| WindowEvents.ResizeMoveRecord | window_manager.js:210-239 | a resizing record moved by the cursor's travel takes the `ResizeRect` of its handle and start rectangle for that travel |
| WindowEvents.EastEdgeFollowsCursor | window_manager.js:221 | with an `e` handle (and no `w`), the left edge stays, and above the minimum width the right edge follows the cursor |
| WindowEvents.WestResizeKeepsRightEdge | window_manager.js:222-225 | with a `w` handle, above the minimum width the right edge stays where it was |
| WindowEvents.ClampedWestResizeDrifts | window_manager.js:222-238 | with a `w` handle below the minimum width, the width stops at 300 but the left edge keeps following the cursor, so the right edge moves right |
| WindowEvents.ClampedNorthResizeDrifts | window_manager.js:227-239 | with an `n` handle below the minimum height, the height stops at 200 but the top edge keeps following the cursor, so the bottom edge moves down |
| WindowEvents.HandlesNeverOpposed | window_manager.js:128-136 | there are eight handles; none names both `e` and `w` or both `n` and `s`, and each names at least one edge |
| WindowEvents.Step | window_manager.js:138-164 | every user action keeps the invariant and never decreases either counter; an action aimed at a window that is no longer present changes nothing |
| WindowEvents.HeaderPressOnMaximizedFocuses | window_manager.js:151-154 | a header press on a maximized window starts no drag, yet it raises the window and makes it active, because the press bubbles to the window |
| WindowEvents.HeaderPressRaisesTwice | window_manager.js:151-154 | a header press on a normal window starts a drag from the press point, makes the window active and consumes two z-indices |
| WindowEvents.Run | window_manager.js:138-164 | any sequence of user actions keeps the invariant and never decreases either counter |
| WindowEvents.IdsNeverReused | window_manager.js:61 | after any sequence of actions, a new window's id differs from every id present before that sequence, closed since or not |
| WindowEvents.CreatedWindowOnTop | window_manager.js:76 | after any sequence of actions, a new window's z-index is above every window present before that sequence |
| WindowHistory.StepKeepsPlaces | window_manager.js:138-164 | every action other than a close keeps each window at its position with its id, keeps each minimized window minimized, and any window it adds has an id above the old counter |
| WindowHistory.CloseKeepsRecords | window_manager.js:298-300 | a close keeps every other record unchanged and in order: records before the closed one keep their position, later ones move up by one |
| WindowHistory.StepIdsOld | window_manager.js:61 | every window present after an action was present before it or has an id above the old counter |
| WindowHistory.ClosedStaysClosed | window_manager.js:61 | a window that has been closed is absent after any later sequence of actions, because ids only grow |
| WindowHistory.CloseKeepsMinimized | window_manager.js:288-291 | closing one window leaves any other minimized window minimized |
| WindowHistory.StepKeepsMinimized | window_manager.js:288-291 | no action shows a minimized window again: if it is still present afterwards, it is minimized and hidden |
| WindowHistory.MinimizedStaysMinimized | window_manager.js:288-291 | under any later sequence of actions, a minimized window is either closed or still minimized and hidden |
| MapNav.Classify | logic.js:72-81 | the four tests in order, each as an exact condition: nothing exactly when the button has no icon, no position class, and text other than B, C, D; A exactly for an icon or `left` without `left-2`; B exactly when there is no icon and either `left-2`, or text B without `left`; C exactly when no earlier test applies and the text is C or it has `right`, without `right-2`; D exactly when no earlier test applies and it has `right-2`, or text D without `right` |
| MapNav.OneClassDecides | logic.js:73-81 | a button with a single position class opens that position's page (left A, left-2 B, right C, right-2 D), except that the text B wins over either right-hand class |
| MapNav.TextDecides | logic.js:75-81 | a button with no icon or class is classified by its text alone; "A" is not recognised |
| MapNav.IconWins | logic.js:73-74 | an icon makes a button page A whatever else it carries |
| MapNav.DoubleClassesResolveOutward | logic.js:73-81 | `left` with `left-2` opens B; `right` with `right-2` opens D unless the text is B |
| MapNav.GroupOf | logic.js:55-59 | the group is 0 exactly when the map is in none of the sections 1 to 4; otherwise it is the smallest of them that contains it |
| MapNav.GroupLabel | logic.js:55-59 | the label is two characters, `0` followed by the group's digit |
| MapNav.GroupIgnoresOtherSections | logic.js:55-59 | sections numbered other than 1 to 4 do not affect the group |
| MapNav.PagePath | logic.js:87 | a page path is 21 characters long |
| MapNav.ParsePagePathRoundTrip | logic.js:87 | parsing a page path recovers its group and page |
| MapNav.PagePathRoundTrip | logic.js:87 | every string that parses as a page path is the path of what it parses to |
| MapNav.Click | logic.js:64-88 | a click opens a page exactly when the button classifies, and the page opened is that group's page for that classification |
| PanZoom.Clamp | logic.js:111 | the result lies in the bounds; a value already inside is kept; one below or above is moved to the nearer end |
| PanZoom.AxisBound | logic.js:213-234 | the bound is never negative; it is positive exactly when the displayed size (the image capped at the container) scaled overhangs the container; a positive bound, scaled, is half the overhang |
| PanZoom.StrictBounds | logic.js:206-242 | the bounds are symmetric about 0 on each axis and given by the axis bound of the image's width and height; each is the image's natural size, or its style size while the natural size is 0 |
| PanZoom.NoRoomUnzoomed | logic.js:213-228 | at scale 1 or below the bound is 0 |
| PanZoom.AxisBoundClosedForm | logic.js:226-229 | the bound is half the displayed size less half the container divided by the scale, or 0 when that is negative |
| PanZoom.BoundsWidenWithScale | logic.js:226-229 | a larger scale never gives a smaller bound |
| PanZoom.NextScale | logic.js:100-101 | the next scale is between 1 and 3; a positive vertical delta multiplies the scale by 0.95 and any other by 1.05 when the product lies in that range, and otherwise the product is replaced by the end it passed; so from a scale in range it does not grow for a positive delta and does not shrink otherwise |
| PanZoom.ZoomAbout | logic.js:104-106 | after rescaling, the cursor's offset from the translation times the old scale equals its old offset times the new scale |
| PanZoom.Wheel | logic.js:93-116 | the scale ends between 1 and 3 and is the next scale; if it does not change, nothing changes; if it does, the translation ends within the new bounds, and on each axis where the rescaled translation lies within them, the cursor stays anchored: its offset from the translation changes by the zoom ratio; on an axis where it lies outside them, the translation becomes the nearer bound; the pan flag and press point are untouched |
| PanZoom.WheelKeepsCursorAnchor | logic.js:103-112 | for every wheel step, changing the scale or not, on each axis where the bounds do not intervene the cursor's offset from the translation changes by exactly the zoom ratio |
| PanZoom.SidewaysWheelZoomsIn | logic.js:100 | a wheel event with zero vertical delta zooms in |
| PanZoom.ZoomStepsDoNotCancel | logic.js:100-101 | below the maximum, a step in followed by a step out multiplies the scale by 0.9975, floored at 1: it ends strictly below its start unless it started at 1 (from 2 it ends at 1.995 over the reals) |
| PanZoom.MouseDown | logic.js:119-124 | starts a pan and remembers the press point relative to the translation; scale and translation unchanged |
| PanZoom.MouseMove | logic.js:126-138 | ignored unless a pan is in progress; during a pan, on each axis the translation is 80% of the cursor's offset from the remembered start when that lies within the bounds, and the nearer bound when it does not; scale, pan flag and press point unchanged |
| PanZoom.MouseUp | logic.js:140-145 | ends any pan and changes nothing else |
| PanZoom.MoveAfterUpIsIgnored | logic.js:126-145 | after a mouse up, moves change nothing |
| PanZoom.DblClick | logic.js:148-153 | scale 1, translation 0, pan flag and press point unchanged |
| PanZoom.DblClickResets | logic.js:148-153 | the reset state is within bounds for any image and container; a second double click changes nothing |
| PanZoom.PanIsDamped | logic.js:129-135 | within one pan, on each axis where neither move hits the bounds, the translation changes between two moves by 80% of the cursor's travel |
| PanZoom.PressThenMoveInPlace | logic.js:119-135 | from a state within bounds, a press followed by a move to the same point leaves the translation at 80% of its value |
| PanZoom.Step | logic.js:93-153 | every input keeps the scale between 1 and 3 and keeps a translation that was within bounds within bounds |
| PanZoom.RunKeepsScale | logic.js:93-153 | any sequence of inputs keeps the scale between 1 and 3 |
| PanZoom.RunKeepsInBounds | logic.js:93-153 | with the image unchanged and the container keeping its width and height (it may move on the page between inputs), any sequence of inputs keeps a translation that started within bounds within bounds |
| PanZoom.InitialInBounds | logic.js:47-52 | the initial state (scale 1, no translation, no pan) is valid and within bounds for any image and container |

## Left out

- **The element trees.** The DOM trees and their markup are not modelled: the overlay, container, header, controls, iframe content and `innerHTML` templates. Neither are the styles a window gets beyond its geometry, nor the map's cursor styles.
- **The simple `openModal` overlay.** Both global `openModal` functions are left out: the one in window_manager.js:7 and the fallback in logic.js:158. So is the question of which of the two is in effect, which depends on the order the scripts load. They only build elements and remove them on click. A map click is modelled up to the page path it would open (`MapNav.Click`).
- **The transform string.** `updateTransform` only writes the transform string for the state the model computes.
- **Other page scripts.** The logo's scroll-to-top and the gallery's horizontal wheel scrolling are page behaviours outside both state machines. Console logging is also left out.
- **Listener registration.** Adding and removing listeners is modelled by what the listeners do: `WindowEvents.Step` and `PanZoom.Step`.
- **Overlapping gestures.** A second press on a window before a mouse up replaces that window's gesture in the model. In the code the first gesture's document listeners stay attached until the next mouse up. A press on a different window starts a second gesture, which both models and code allow.
- **Gestures on closed windows.** A window closed during a gesture drops its record. In the code, its still-attached listeners keep writing to the detached element, which has no visible effect.
- **Windows.Create:** options are whole pixel counts, standing for the `'Npx'` strings the code accepts. Any other CSS length an option could hold is not modelled.
- **Windows.MoveRecord:** positions and sizes are integers. The page reports fractional pixels, and the code writes them back unrounded.
- **PanZoom.Wheel:** arithmetic is exact over `real`. IEEE double rounding is not modelled, so the equalities in `PanZoom.ZoomStepsDoNotCancel` and `PanZoom.WheelKeepsCursorAnchor` hold for real numbers and only approximately for doubles.
- **PanZoom.StrictBounds:** the image size read through `parseInt` of the computed style is taken as a given integer. A style that does not parse (NaN) is not modelled.
- **Whitespace trimming.** Trimming of button text is not modelled: the text is taken already trimmed.

=== FILE: map_nav.dfy ===
/** Navigation from an interactive map: which of the four pages (A to D) a
    navigation button opens, which group (01 to 04, or 00) the map belongs
    to, and the page path built from the two. */
module MapNav {
  import opened Options

  /** The four pages a map can link to. */
  datatype Role = A | B | C | D

  function Letter(r: Role): char {
    match r
    case A => 'A'
    case B => 'B'
    case C => 'C'
    case D => 'D'
  }

  /** What the click handler inspects of a navigation button: whether it holds
      an icon element, its trimmed text, and its four position classes
      (left, left-2, right, right-2). */
  datatype NavButton = NavButton(
    hasIcon: bool,
    text: string,
    navLeft: bool,
    navLeft2: bool,
    navRight: bool,
    navRight2: bool)

  /** The position classes a button can carry. */
  datatype NavClass = Left | Left2 | Right | Right2

  /** The page each position class stands for. */
  function ClassRole(c: NavClass): Role {
    match c
    case Left => A
    case Left2 => B
    case Right => C
    case Right2 => D
  }

  /** A button without an icon carrying exactly the class `c`. */
  function WithOnly(c: NavClass, text: string): NavButton {
    NavButton(false, text, c == Left, c == Left2, c == Right, c == Right2)
  }

  /** A button without an icon or any position class. */
  function Plain(text: string): NavButton {
    NavButton(false, text, false, false, false, false)
  }

  /** The four tests of the click handler, tried in order: the first that
      holds names the page; when none holds the click opens nothing. */
  function Classify(b: NavButton): (r: Option<Role>)
    ensures r.None? <==>
      && !b.hasIcon && !b.navLeft && !b.navLeft2 && !b.navRight && !b.navRight2
      && b.text != "B" && b.text != "C" && b.text != "D"
    ensures r == Some(A) <==> b.hasIcon || (b.navLeft && !b.navLeft2)
    ensures r == Some(B) <==> !b.hasIcon && (b.navLeft2 || (b.text == "B" && !b.navLeft))
    ensures r == Some(C) <==>
      && !b.hasIcon && !b.navLeft && !b.navLeft2 && b.text != "B"
      && (b.text == "C" || b.navRight) && !b.navRight2
    ensures r == Some(D) <==>
      && !b.hasIcon && !b.navLeft && !b.navLeft2 && b.text != "B"
      && (b.navRight2 || (b.text == "D" && !b.navRight))
  {
    if b.hasIcon || (b.navLeft && !b.navLeft2) then Some(A)
    else if b.text == "B" || b.navLeft2 then Some(B)
    else if (b.text == "C" || b.navRight) && !b.navRight2 then Some(C)
    else if b.text == "D" || b.navRight2 then Some(D)
    else None
  }

  /** A button with a single position class opens that position's page,
      except that the text "B" wins over either right-hand class. */
  lemma OneClassDecides(c: NavClass, text: string)
    ensures Classify(WithOnly(c, text)) ==
      if text == "B" && (c == Right || c == Right2) then Some(B) else Some(ClassRole(c))
  {
  }

  /** A button with neither icon nor class is classified by its text alone;
      the text "A" is not recognised, so such a button opens nothing. */
  lemma TextDecides(text: string)
    ensures Classify(Plain(text)) ==
      if text == "B" then Some(B)
      else if text == "C" then Some(C)
      else if text == "D" then Some(D)
      else None
    ensures Classify(Plain("A")) == None
  {
  }

  /** An icon makes a button the A page whatever else it carries. */
  lemma IconWins(b: NavButton)
    requires b.hasIcon
    ensures Classify(b) == Some(A)
  {
  }

  /** Carrying both classes of a side resolves to the outer page of that
      side: left with left-2 opens B, right with right-2 opens D. */
  lemma DoubleClassesResolveOutward(text: string)
    ensures Classify(NavButton(false, text, true, true, false, false)) == Some(B)
    ensures text != "B" ==> Classify(NavButton(false, text, false, false, true, true)) == Some(D)
  {
  }

  // ---------------------------------------------------------------------
  // Group number
  // ---------------------------------------------------------------------

  /** The group of a map container, from the numbers k of the map sections
      (map0k) it lies inside: the first of 1, 2, 3, 4 that is one of them,
      or 0 when it lies in none. */
  function GroupOf(sections: set<int>): (g: nat)
    ensures g <= 4
    ensures g == 0 <==> forall k :: 1 <= k <= 4 ==> k !in sections
    ensures g != 0 ==> g in sections && forall k :: 1 <= k < g ==> k !in sections
  {
    if 1 in sections then 1
    else if 2 in sections then 2
    else if 3 in sections then 3
    else if 4 in sections then 4
    else 0
  }

  /** Two-digit label of a group: "00" to "04". */
  function GroupLabel(g: nat): (s: string)
    requires g <= 4
    ensures |s| == 2 && s[0] == '0' && '0' <= s[1] <= '4'
    ensures s[1] as int - '0' as int == g
  {
    ['0', ['0', '1', '2', '3', '4'][g]]
  }

  /** The group is determined by the smallest section number of 1 to 4 the
      container lies in; sections with other numbers do not matter. */
  lemma GroupIgnoresOtherSections(sections: set<int>, extra: int)
    requires extra < 1 || extra > 4
    ensures GroupOf(sections + {extra}) == GroupOf(sections)
  {
  }

  // ---------------------------------------------------------------------
  // Page path
  // ---------------------------------------------------------------------

  const Prefix := "page/grp"
  const Middle := "/page"
  const Suffix := ".html"

  /** The page a navigation button of group `g` opens for page `r`. */
  function PagePath(g: nat, r: Role): (p: string)
    requires g <= 4
    ensures |p| == 21
  {
    Prefix + GroupLabel(g) + Middle + [Letter(r)] + Suffix
  }

  /** Reads a page path back into its group and page, when it has the shape
      PagePath produces. */
  function ParsePagePath(p: string): Option<(nat, Role)> {
    if |p| == 21 && p[..8] == Prefix && p[8] == '0' && '0' <= p[9] <= '4'
       && p[10..15] == Middle && p[16..] == Suffix
    then
      var g := (p[9] as int - '0' as int) as nat;
      match p[15]
      case 'A' => Some((g, A))
      case 'B' => Some((g, B))
      case 'C' => Some((g, C))
      case 'D' => Some((g, D))
      case _ => None
    else None
  }

  /** A page path names its group and page unambiguously. */
  lemma ParsePagePathRoundTrip(g: nat, r: Role)
    requires g <= 4
    ensures ParsePagePath(PagePath(g, r)) == Some((g, r))
  {
    var p := PagePath(g, r);
    assert p[..8] == Prefix;
    assert p[8..10] == GroupLabel(g);
    assert p[10..15] == Middle;
    assert p[15] == Letter(r);
    assert p[16..] == Suffix;
  }

  /** Every string that reads as a page path is the path of what it reads as. */
  lemma PagePathRoundTrip(p: string)
    requires ParsePagePath(p).Some?
    ensures ParsePagePath(p).value.0 <= 4
    ensures PagePath(ParsePagePath(p).value.0, ParsePagePath(p).value.1) == p
  {
    var (g, r) := ParsePagePath(p).value;
    var q := PagePath(g, r);
    assert q[..8] == p[..8];
    assert q[10..15] == p[10..15];
    assert q[16..] == p[16..];
    assert forall i :: 0 <= i < 21 ==> q[i] == p[i] by {
      forall i | 0 <= i < 21 ensures q[i] == p[i] {
        if i < 8 {
          assert q[i] == q[..8][i] && p[i] == p[..8][i];
        } else if 10 <= i < 15 {
          assert q[i] == q[10..15][i - 10] && p[i] == p[10..15][i - 10];
        } else if 16 <= i {
          assert q[i] == q[16..][i - 16] && p[i] == p[16..][i - 16];
        }
      }
    }
  }

  /** A click on a navigation button of a map: the page it opens, if any. */
  function Click(sections: set<int>, b: NavButton): (r: Option<string>)
    ensures r.Some? <==> Classify(b).Some?
    ensures r.Some? ==> ParsePagePath(r.value) == Some((GroupOf(sections), Classify(b).value))
  {
    match Classify(b)
    case None => None
    case Some(role) =>
      ParsePagePathRoundTrip(GroupOf(sections), role);
      Some(PagePath(GroupOf(sections), role))
  }
}

=== FILE: options.dfy ===
/** Optional values. `None` stands for JavaScript's `null`, for a missing
    property, and for a falsy option value that `||` replaces by a default. */
module Options {

  datatype Option<+T> = None | Some(value: T) {

    /** The wrapped value, or `default` when there is none (JavaScript's `x || default`). */
    function GetOr(default: T): T {
      match this
      case Some(v) => v
      case None => default
    }
  }
}

=== FILE: page_title.dfy ===
/** The window title derived from a page URL (`getPageTitle` in window_manager.js). */
module PageTitle {

  /** `suffix` is a final segment of `s`. */
  predicate EndsWith(s: string, suffix: string) {
    |suffix| <= |s| && s[|s| - |suffix|..] == suffix
  }

  /** Puts one separator between neighbouring parts; the inverse of `Split`. */
  function Join(parts: seq<string>, sep: char): string
    requires |parts| >= 1
  {
    if |parts| == 1 then parts[0]
    else Join(parts[..|parts| - 1], sep) + [sep] + parts[|parts| - 1]
  }

  /** JavaScript's `s.split(sep)` for a one-character separator: the maximal
      separator-free pieces between separators, empty pieces included, and
      at least one piece (`"".split("/")` is `[""]`). */
  function Split(s: string, sep: char): (parts: seq<string>)
    ensures |parts| >= 1
    ensures forall i :: 0 <= i < |parts| ==> sep !in parts[i]
    decreases |s|
  {
    if |s| == 0 then [""]
    else
      var init := Split(s[..|s| - 1], sep);
      var c := s[|s| - 1];
      if c == sep then init + [""]
      else
        var k := |init| - 1;
        var parts := init[..k] + [init[k] + [c]];
        assert forall i :: 0 <= i < k ==> parts[i] == init[i];
        parts
  }

  /** Joining the pieces gives back the text: `Split` loses nothing. */
  lemma {:induction false} JoinSplit(s: string, sep: char)
    ensures Join(Split(s, sep), sep) == s
    decreases |s|
  {
    if |s| > 0 {
      var init := Split(s[..|s| - 1], sep);
      JoinSplit(s[..|s| - 1], sep);
      assert s == s[..|s| - 1] + [s[|s| - 1]];
      if s[|s| - 1] == sep {
        JoinAppendEmpty(init, sep);
      } else {
        JoinExtendLast(init, sep, s[|s| - 1]);
      }
    }
  }

  /** `s` ends with `last`, which is either all of `s` or preceded by a separator. */
  predicate FinalPiece(s: string, last: string, sep: char) {
    EndsWith(s, last) && (|last| == |s| || s[|s| - |last| - 1] == sep)
  }

  /** The last piece is the text after the last separator. */
  lemma {:induction false} SplitLastPiece(s: string, sep: char)
    ensures var parts := Split(s, sep); FinalPiece(s, parts[|parts| - 1], sep)
    ensures var parts := Split(s, sep); sep !in parts[|parts| - 1]
    decreases |s|
  {
    if |s| > 0 {
      var t := s[..|s| - 1];
      SplitLastPiece(t, sep);
      var init := Split(t, sep);
      if s[|s| - 1] == sep {
        assert Split(s, sep) == init + [""];
      } else {
        var k := |init| - 1;
        assert Split(s, sep) == init[..k] + [init[k] + [s[|s| - 1]]];
        LastPieceGrows(s, init[k], sep);
      }
    }
  }

  /** A separator at the end of the text starts a new, empty piece. */
  lemma JoinAppendEmpty(init: seq<string>, sep: char)
    requires |init| >= 1
    ensures Join(init + [""], sep) == Join(init, sep) + [sep]
  {
    var parts := init + [""];
    assert parts[..|parts| - 1] == init;
  }

  /** Any other character at the end of the text extends the last piece. */
  lemma JoinExtendLast(init: seq<string>, sep: char, c: char)
    requires |init| >= 1
    ensures Join(init[..|init| - 1] + [init[|init| - 1] + [c]], sep) == Join(init, sep) + [c]
  {
    var k := |init| - 1;
    var parts := init[..k] + [init[k] + [c]];
    if k > 0 {
      assert parts[..|parts| - 1] == init[..k];
    }
  }

  /** If `last` is the final piece of `s` without its last character, then
      `last` extended by that character is the final piece of `s`. */
  lemma LastPieceGrows(s: string, last: string, sep: char)
    requires |s| >= 1
    requires FinalPiece(s[..|s| - 1], last, sep)
    ensures FinalPiece(s, last + [s[|s| - 1]], sep)
  {
    var t := s[..|s| - 1];
    assert s[|s| - |last| - 1..] == t[|t| - |last|..] + [s[|s| - 1]];
  }

  const Fallback := "Window"

  /** `getPageTitle`: the text after the last `/` of the URL, or "Window"
      when that text is empty. */
  function Title(url: string): (title: string)
    ensures |title| > 0 && '/' !in title
    ensures title == Fallback || FinalPiece(url, title, '/')
    ensures (|url| == 0 || url[|url| - 1] == '/') ==> title == Fallback
    ensures |url| > 0 && url[|url| - 1] != '/' ==> FinalPiece(url, title, '/')
  {
    var parts := Split(url, '/');
    var last := parts[|parts| - 1];
    SplitLastPiece(url, '/');
    if last == "" then Fallback else last
  }
}

=== FILE: pan_zoom.dfy ===
/** Pan and zoom of one interactive map image: the wheel zooms about the
    cursor in steps of 5%, a press-and-drag pans at 80% of the cursor's
    travel, a double click resets, and the translation is kept inside
    bounds that depend on the image, the container and the scale. */
module PanZoom {

  const MinScale: real := 1.0
  const MaxScale: real := 3.0
  /** Scale factor of one wheel step away from the user (zoom out). */
  const ZoomOut: real := 0.95
  /** Scale factor of one wheel step towards the user, or sideways (zoom in). */
  const ZoomIn: real := 1.05
  /** Fraction of the cursor's travel a pan applies. */
  const PanDamping: real := 0.8

  function Min(a: real, b: real): real { if a <= b then a else b }
  function Max(a: real, b: real): real { if a >= b then a else b }

  /** Limits `v` to `[lo, hi]` by raising it to `lo`, then lowering it to `hi`. */
  function Clamp(v: real, lo: real, hi: real): (r: real)
    requires lo <= hi
    ensures lo <= r <= hi
    ensures lo <= v <= hi ==> r == v
    ensures v < lo ==> r == lo
    ensures v > hi ==> r == hi
  {
    Min(Max(v, lo), hi)
  }

  // ---------------------------------------------------------------------
  // Bounds
  // ---------------------------------------------------------------------

  /** The container's bounding rectangle on screen. */
  datatype Box = Box(left: real, top: real, width: real, height: real)

  /** What the page reports about the image: its natural size (0 while not
      loaded) and the whole-pixel size read from its computed style. */
  datatype Image = Image(naturalWidth: nat, naturalHeight: nat, styleWidth: int, styleHeight: int)

  /** The natural size when known, else the style size. */
  function ImageWidth(img: Image): real
  {
    if img.naturalWidth != 0 then img.naturalWidth as real else img.styleWidth as real
  }

  function ImageHeight(img: Image): real
  {
    if img.naturalHeight != 0 then img.naturalHeight as real else img.styleHeight as real
  }

  /** The largest translation along one axis that keeps the image covering
      the container: the displayed size is the image size capped at the
      container's, the bound is 0 while the scaled image fits, and otherwise
      it is half the overhang, in unscaled units. */
  function AxisBound(image: real, container: real, scale: real): (b: real)
    requires scale > 0.0
    ensures b >= 0.0
    ensures b > 0.0 <==> Min(image, container) * scale > container
    ensures b > 0.0 ==> 2.0 * b * scale + container == Min(image, container) * scale
  {
    var scaled := Min(image, container) * scale;
    if scaled > container then (scaled - container) / 2.0 / scale else 0.0
  }

  datatype Bounds = Bounds(minX: real, maxX: real, minY: real, maxY: real)

  /** The translation bounds for a scale: symmetric about 0 on each axis. */
  function StrictBounds(box: Box, img: Image, scale: real): (b: Bounds)
    requires scale > 0.0
    ensures b.minX == -b.maxX && b.maxX >= 0.0
    ensures b.minY == -b.maxY && b.maxY >= 0.0
    ensures b.maxX == AxisBound(ImageWidth(img), box.width, scale)
    ensures b.maxY == AxisBound(ImageHeight(img), box.height, scale)
    ensures img.naturalWidth != 0 ==> b.maxX == AxisBound(img.naturalWidth as real, box.width, scale)
    ensures img.naturalWidth == 0 ==> b.maxX == AxisBound(img.styleWidth as real, box.width, scale)
    ensures img.naturalHeight != 0 ==> b.maxY == AxisBound(img.naturalHeight as real, box.height, scale)
    ensures img.naturalHeight == 0 ==> b.maxY == AxisBound(img.styleHeight as real, box.height, scale)
  {
    var bX := AxisBound(ImageWidth(img), box.width, scale);
    var bY := AxisBound(ImageHeight(img), box.height, scale);
    Bounds(-bX, bX, -bY, bY)
  }

  /** At scale 1 or below the displayed image never overhangs, so no
      translation is allowed. */
  lemma NoRoomUnzoomed(image: real, container: real, scale: real)
    requires container >= 0.0 && 0.0 < scale <= 1.0
    ensures AxisBound(image, container, scale) == 0.0
  {
    var d := Min(image, container);
    if d >= 0.0 {
      assert d * scale <= d * 1.0;
    } else {
      assert d * scale < 0.0;
    }
  }

  /** Zooming in never narrows the bounds. */
  lemma BoundsWidenWithScale(image: real, container: real, s1: real, s2: real)
    requires container >= 0.0 && 0.0 < s1 <= s2
    ensures AxisBound(image, container, s1) <= AxisBound(image, container, s2)
  {
    AxisBoundClosedForm(image, container, s1);
    AxisBoundClosedForm(image, container, s2);
    DivMonotone(container, 2.0 * s1, 2.0 * s2);
  }

  /** The bound is half the displayed size less half the container size
      divided by the scale, or 0 when that is negative. */
  lemma AxisBoundClosedForm(image: real, container: real, s: real)
    requires s > 0.0
    ensures AxisBound(image, container, s) == Max(0.0, Min(image, container) / 2.0 - container / (2.0 * s))
  {
    var d := Min(image, container);
    var e := d / 2.0 - container / (2.0 * s);
    assert container / (2.0 * s) * (2.0 * s) == container;
    assert e * (2.0 * s) == d * s - container;
    SignOfProduct(e, 2.0 * s);
    assert (d * s - container) / 2.0 / s == (d * s - container) / (2.0 * s);
  }

  lemma SignOfProduct(e: real, k: real)
    requires k > 0.0
    ensures e * k > 0.0 <==> e > 0.0
  {
    if e > 0.0 {
      assert e * k > 0.0;
    } else {
      assert e * k <= 0.0;
    }
  }

  lemma DivMonotone(c: real, x: real, y: real)
    requires c >= 0.0 && 0.0 < x <= y
    ensures c / y <= c / x
  {
    assert c / y * y == c;
    assert c / x * x == c;
    assert c / x * y >= c / x * x;
  }

  // ---------------------------------------------------------------------
  // State and gestures
  // ---------------------------------------------------------------------

  /** The pan/zoom state of one map: the scale, the translation, whether a
      pan is in progress and the press point relative to the translation. */
  datatype State = State(
    scale: real,
    translateX: real,
    translateY: real,
    isDragging: bool,
    startX: real,
    startY: real)

  const Initial := State(1.0, 0.0, 0.0, false, 0.0, 0.0)

  /** The scale stays between the minimum and maximum. */
  predicate Valid(st: State) {
    MinScale <= st.scale <= MaxScale
  }

  /** The translation lies inside the bounds for the current scale. */
  predicate InBounds(st: State, box: Box, img: Image)
    requires st.scale > 0.0
  {
    var b := StrictBounds(box, img, st.scale);
    b.minX <= st.translateX <= b.maxX && b.minY <= st.translateY <= b.maxY
  }

  /** The scale a wheel step asks for, limited to the allowed range. */
  function NextScale(scale: real, deltaY: real): (s: real)
    ensures MinScale <= s <= MaxScale
    ensures MinScale <= scale <= MaxScale && deltaY > 0.0 ==> s <= scale
    ensures MinScale <= scale <= MaxScale && deltaY <= 0.0 ==> s >= scale
    ensures deltaY > 0.0 && MinScale <= scale * ZoomOut <= MaxScale ==> s == scale * ZoomOut
    ensures deltaY <= 0.0 && MinScale <= scale * ZoomIn <= MaxScale ==> s == scale * ZoomIn
    ensures deltaY > 0.0 && scale * ZoomOut < MinScale ==> s == MinScale
    ensures deltaY <= 0.0 && scale * ZoomIn > MaxScale ==> s == MaxScale
  {
    var factor := if deltaY > 0.0 then ZoomOut else ZoomIn;
    Min(Max(MinScale, scale * factor), MaxScale)
  }

  /** The point `x` has the same offset from translation `t2` at scale `s2`
      as from `t` at scale `s`, once offsets are divided by the scale. */
  predicate Anchored(x: real, t: real, s: real, t2: real, s2: real) {
    (x - t2) * s == (x - t) * s2
  }

  /** Rescales translation `t` about the point `x` when the scale goes from
      `s` to `s2`: the point's offset from the translation changes by the
      ratio of the scales. */
  function ZoomAbout(x: real, t: real, s: real, s2: real): (r: real)
    requires s > 0.0
    ensures Anchored(x, t, s, r, s2)
  {
    var k := s2 / s;
    assert k * s == s2;
    x - k * (x - t)
  }

  /** A wheel step with the cursor at (clientX, clientY). If the scale does
      not change nothing happens; otherwise the translation is rescaled
      about the cursor's position in the container and then clamped. */
  function Wheel(st: State, box: Box, img: Image, clientX: real, clientY: real, deltaY: real): (r: State)
    requires st.scale > 0.0
    ensures Valid(r)
    ensures r.scale == st.scale ==> r == st
    ensures r.scale != st.scale ==> InBounds(r, box, img)
    ensures r.scale == NextScale(st.scale, deltaY)
    ensures r.isDragging == st.isDragging && r.startX == st.startX && r.startY == st.startY
    ensures r.scale != st.scale ==> var b := StrictBounds(box, img, r.scale);
      b.minX <= ZoomAbout(clientX - box.left, st.translateX, st.scale, r.scale) <= b.maxX ==>
        Anchored(clientX - box.left, st.translateX, st.scale, r.translateX, r.scale)
    ensures r.scale != st.scale ==> var b := StrictBounds(box, img, r.scale);
      b.minY <= ZoomAbout(clientY - box.top, st.translateY, st.scale, r.scale) <= b.maxY ==>
        Anchored(clientY - box.top, st.translateY, st.scale, r.translateY, r.scale)
    ensures r.scale != st.scale ==> var b := StrictBounds(box, img, r.scale);
      var zx := ZoomAbout(clientX - box.left, st.translateX, st.scale, r.scale);
      && (zx < b.minX ==> r.translateX == b.minX)
      && (zx > b.maxX ==> r.translateX == b.maxX)
    ensures r.scale != st.scale ==> var b := StrictBounds(box, img, r.scale);
      var zy := ZoomAbout(clientY - box.top, st.translateY, st.scale, r.scale);
      && (zy < b.minY ==> r.translateY == b.minY)
      && (zy > b.maxY ==> r.translateY == b.maxY)
  {
    var newScale := NextScale(st.scale, deltaY);
    if newScale == st.scale then st
    else
      var b := StrictBounds(box, img, newScale);
      st.(scale := newScale,
          translateX := Clamp(ZoomAbout(clientX - box.left, st.translateX, st.scale, newScale), b.minX, b.maxX),
          translateY := Clamp(ZoomAbout(clientY - box.top, st.translateY, st.scale, newScale), b.minY, b.maxY))
  }

  /** Zooming about the cursor: on each axis where the bounds do not
      intervene, the cursor's offset from the translation grows or shrinks by
      exactly the zoom ratio. */
  lemma WheelKeepsCursorAnchor(st: State, box: Box, img: Image, clientX: real, clientY: real, deltaY: real)
    requires st.scale > 0.0
    ensures var r := Wheel(st, box, img, clientX, clientY, deltaY);
      var b := StrictBounds(box, img, r.scale);
      b.minX <= ZoomAbout(clientX - box.left, st.translateX, st.scale, r.scale) <= b.maxX ==>
        Anchored(clientX - box.left, st.translateX, st.scale, r.translateX, r.scale)
    ensures var r := Wheel(st, box, img, clientX, clientY, deltaY);
      var b := StrictBounds(box, img, r.scale);
      b.minY <= ZoomAbout(clientY - box.top, st.translateY, st.scale, r.scale) <= b.maxY ==>
        Anchored(clientY - box.top, st.translateY, st.scale, r.translateY, r.scale)
  {
    var r := Wheel(st, box, img, clientX, clientY, deltaY);
    if r.scale == st.scale {
      assert r == st;
    }
  }

  /** A wheel event with no vertical movement (a sideways scroll) zooms in. */
  lemma SidewaysWheelZoomsIn(st: State, box: Box, img: Image, clientX: real, clientY: real)
    requires MinScale <= st.scale < MaxScale
    ensures Wheel(st, box, img, clientX, clientY, 0.0).scale > st.scale
  {
  }

  /** Zoom steps are not inverse to each other: a step in followed by a step
      out, below the maximum, multiplies the scale by 0.9975 (floored at the
      minimum), so it ends strictly below where it started unless it started
      at the minimum. Over the reals, from scale 2 it ends at 1.995; the
      same two steps in double precision give 1.9949999999999999. */
  lemma ZoomStepsDoNotCancel(s: real, up: real, down: real)
    requires MinScale <= s && s * ZoomIn <= MaxScale
    requires up <= 0.0 < down
    ensures NextScale(NextScale(s, up), down) == Max(MinScale, s * 0.9975)
    ensures s > MinScale ==> NextScale(NextScale(s, up), down) < s
    ensures s == MinScale ==> NextScale(NextScale(s, up), down) == s
    ensures NextScale(NextScale(2.0, up), down) == 1.995
  {
    assert NextScale(s, up) == s * ZoomIn;
    assert NextScale(2.0, up) == 2.1;
  }

  /** A press starts a pan and remembers the press point relative to the
      current translation. */
  function MouseDown(st: State, clientX: real, clientY: real): (r: State)
    ensures r.isDragging
    ensures r.scale == st.scale && r.translateX == st.translateX && r.translateY == st.translateY
    ensures clientX - r.startX == st.translateX && clientY - r.startY == st.translateY
  {
    st.(isDragging := true, startX := clientX - st.translateX, startY := clientY - st.translateY)
  }

  /** A move anywhere in the document: ignored unless a pan is in progress;
      otherwise the translation becomes 80% of the cursor's offset from the
      remembered start, clamped to the bounds. */
  function MouseMove(st: State, box: Box, img: Image, clientX: real, clientY: real): (r: State)
    requires st.scale > 0.0
    ensures r.scale == st.scale && r.isDragging == st.isDragging
    ensures !st.isDragging ==> r == st
    ensures st.isDragging ==> InBounds(r, box, img)
    ensures r.startX == st.startX && r.startY == st.startY
    ensures st.isDragging ==> var b := StrictBounds(box, img, st.scale);
      var x := (clientX - st.startX) * PanDamping;
      && (b.minX <= x <= b.maxX ==> r.translateX == x)
      && (x < b.minX ==> r.translateX == b.minX)
      && (x > b.maxX ==> r.translateX == b.maxX)
    ensures st.isDragging ==> var b := StrictBounds(box, img, st.scale);
      var y := (clientY - st.startY) * PanDamping;
      && (b.minY <= y <= b.maxY ==> r.translateY == y)
      && (y < b.minY ==> r.translateY == b.minY)
      && (y > b.maxY ==> r.translateY == b.maxY)
  {
    if !st.isDragging then st
    else
      var b := StrictBounds(box, img, st.scale);
      st.(translateX := Clamp((clientX - st.startX) * PanDamping, b.minX, b.maxX),
          translateY := Clamp((clientY - st.startY) * PanDamping, b.minY, b.maxY))
  }

  /** A release anywhere in the document ends a pan. */
  function MouseUp(st: State): (r: State)
    ensures !r.isDragging
    ensures r.(isDragging := st.isDragging) == st
  {
    st.(isDragging := false)
  }

  /** After a release, moves change nothing. */
  lemma MoveAfterUpIsIgnored(st: State, box: Box, img: Image, clientX: real, clientY: real)
    requires st.scale > 0.0
    ensures MouseMove(MouseUp(st), box, img, clientX, clientY) == MouseUp(st)
  {
  }

  /** A double click resets scale and translation; it does not end a pan. */
  function DblClick(st: State): (r: State)
    ensures r.scale == MinScale && r.translateX == 0.0 && r.translateY == 0.0
    ensures r.isDragging == st.isDragging && r.startX == st.startX && r.startY == st.startY
  {
    st.(scale := 1.0, translateX := 0.0, translateY := 0.0)
  }

  /** The reset state is in bounds for every image and container, and a
      second double click changes nothing. */
  lemma DblClickResets(st: State, box: Box, img: Image)
    ensures InBounds(DblClick(st), box, img)
    ensures DblClick(DblClick(st)) == DblClick(st)
    ensures DblClick(Initial) == Initial
  {
  }

  /** Within one pan, the translation moves by 80% of the cursor's travel
      between two moves, on each axis where neither position hits the bounds. */
  lemma PanIsDamped(st: State, box: Box, img: Image, x1: real, y1: real, x2: real, y2: real)
    requires st.scale > 0.0 && st.isDragging
    ensures var b := StrictBounds(box, img, st.scale);
      var r1 := MouseMove(st, box, img, x1, y1);
      var r2 := MouseMove(r1, box, img, x2, y2);
      b.minX <= (x1 - st.startX) * PanDamping <= b.maxX && b.minX <= (x2 - st.startX) * PanDamping <= b.maxX ==>
        r2.translateX - r1.translateX == PanDamping * (x2 - x1)
    ensures var b := StrictBounds(box, img, st.scale);
      var r1 := MouseMove(st, box, img, x1, y1);
      var r2 := MouseMove(r1, box, img, x2, y2);
      b.minY <= (y1 - st.startY) * PanDamping <= b.maxY && b.minY <= (y2 - st.startY) * PanDamping <= b.maxY ==>
        r2.translateY - r1.translateY == PanDamping * (y2 - y1)
  {
  }

  /** A press followed by a move to the same point does not leave the image
      where it was: the translation shrinks to 80% of its value, towards the
      centre. */
  lemma PressThenMoveInPlace(st: State, box: Box, img: Image, clientX: real, clientY: real)
    requires st.scale > 0.0 && InBounds(st, box, img)
    ensures var r := MouseMove(MouseDown(st, clientX, clientY), box, img, clientX, clientY);
      r.translateX == PanDamping * st.translateX && r.translateY == PanDamping * st.translateY
  {
    var b := StrictBounds(box, img, st.scale);
    var down := MouseDown(st, clientX, clientY);
    assert (clientX - down.startX) * PanDamping == PanDamping * st.translateX;
    assert (clientY - down.startY) * PanDamping == PanDamping * st.translateY;
    if st.translateX >= 0.0 {
      assert b.minX <= PanDamping * st.translateX <= b.maxX;
    } else {
      assert b.minX <= PanDamping * st.translateX <= b.maxX;
    }
  }

  // ---------------------------------------------------------------------
  // Sequences of inputs
  // ---------------------------------------------------------------------

  /** One input the map reacts to. */
  datatype Input =
    | WheelAt(clientX: real, clientY: real, deltaY: real)
    | Press(clientX: real, clientY: real)
    | MoveTo(clientX: real, clientY: real)
    | Release
    | DoubleClick

  function Step(st: State, box: Box, img: Image, i: Input): (r: State)
    requires Valid(st)
    ensures Valid(r)
    ensures InBounds(st, box, img) ==> InBounds(r, box, img)
  {
    match i
    case WheelAt(x, y, dy) => Wheel(st, box, img, x, y, dy)
    case Press(x, y) => MouseDown(st, x, y)
    case MoveTo(x, y) => MouseMove(st, box, img, x, y)
    case Release => MouseUp(st)
    case DoubleClick => DblClickResets(st, box, img); DblClick(st)
  }

  /** An input together with the container's client rectangle when it
      arrives: the page may scroll between inputs. */
  datatype Event = Event(box: Box, input: Input)

  /** Applies events in order, with the image unchanged. */
  function Run(st: State, img: Image, events: seq<Event>): State
    requires Valid(st)
    decreases |events|
  {
    if |events| == 0 then st
    else
      var next := Step(st, events[0].box, img, events[0].input);
      Run(next, img, events[1..])
  }

  /** The scale stays between 1 and 3 under any inputs. */
  lemma {:induction false} RunKeepsScale(st: State, img: Image, events: seq<Event>)
    requires Valid(st)
    ensures Valid(Run(st, img, events))
    decreases |events|
  {
    if |events| > 0 {
      RunKeepsScale(Step(st, events[0].box, img, events[0].input), img, events[1..]);
    }
  }

  /** The bounds depend on the container's size only, not on where it sits
      on the page. */
  lemma SameSizeSameBounds(box: Box, box': Box, img: Image, scale: real)
    requires scale > 0.0
    requires box'.width == box.width && box'.height == box.height
    ensures StrictBounds(box', img, scale) == StrictBounds(box, img, scale)
  {
  }

  /** Starting inside the bounds, the translation stays inside them under any
      inputs, as long as the image keeps its size and the container keeps
      its width and height; the container may move on the page. */
  lemma {:induction false} RunKeepsInBounds(st: State, box: Box, img: Image, events: seq<Event>)
    requires Valid(st) && InBounds(st, box, img)
    requires forall k :: 0 <= k < |events| ==> events[k].box.width == box.width && events[k].box.height == box.height
    ensures Valid(Run(st, img, events))
    ensures InBounds(Run(st, img, events), box, img)
    decreases |events|
  {
    RunKeepsScale(st, img, events);
    if |events| > 0 {
      var e := events[0];
      var next := Step(st, e.box, img, e.input);
      SameSizeSameBounds(box, e.box, img, st.scale);
      assert InBounds(st, e.box, img);
      SameSizeSameBounds(box, e.box, img, next.scale);
      assert InBounds(next, box, img);
      RunKeepsInBounds(next, box, img, events[1..]);
    }
  }

  /** The initial state is valid and in bounds for every image and container. */
  lemma InitialInBounds(box: Box, img: Image)
    ensures Valid(Initial) && InBounds(Initial, box, img)
  {
  }
}

=== FILE: window_events.dfy ===
/** Properties of the window manager that relate several operations: the
    maximize/restore cycle, the drag and resize gestures seen end to end,
    and any sequence of user actions. */
module WindowEvents {
  import opened Options
  import opened Windows

  /** The constructor's state satisfies the manager's invariant. */
  lemma InitValid()
    ensures Valid(Init())
    ensures Init().windows == [] && Init().active == None
  {
  }

  // ---------------------------------------------------------------------
  // Maximize / restore
  // ---------------------------------------------------------------------

  /** On a window with no saved bounds whose style matches its measured
      rectangle, maximize followed by restore gives back the geometry it had,
      and leaves that rectangle saved. */
  lemma MaximizeRestoreRoundTrip(m: Manager, id: nat, rect: Rect)
    requires Valid(m) && Live(m.windows, id)
    requires Get(m, id).originalBounds.None? && Get(m, id).style == PixelStyle(rect)
    ensures var m2 := Restore(Maximize(m, id, rect), id);
      && Get(m2, id).style == Get(m, id).style
      && !Get(m2, id).isMaximized
      && Get(m2, id) == Get(m, id).(originalBounds := Some(rect), isMaximized := false)
  {
  }

  /** Saved bounds are never replaced: once a window has saved `first`, any
      later maximize (whatever it measures) followed by restore returns to
      `first`, not to the geometry the window had just before. */
  lemma RestoreReturnsToFirstCapture(m: Manager, id: nat, first: Rect, later: Rect)
    requires Valid(m) && Live(m.windows, id)
    requires Get(m, id).originalBounds == Some(first)
    ensures Get(Restore(Maximize(m, id, later), id), id).style == PixelStyle(first)
  {
  }

  /** Two full cycles on a fresh window: the second restore lands on the
      rectangle measured at the first maximize, even when the window was
      moved in between and the second maximize measured somewhere else. */
  lemma SecondCycleRestoresFirstGeometry(m: Manager, id: nat, r1: Rect, r2: Rect)
    requires Valid(m) && Live(m.windows, id)
    requires Get(m, id).originalBounds.None?
    ensures var m1 := Restore(Maximize(m, id, r1), id);
      Get(Restore(Maximize(m1, id, r2), id), id).style == PixelStyle(r1)
  {
    var m1 := Restore(Maximize(m, id, r1), id);
    assert Get(m1, id).originalBounds == Some(r1);
    RestoreReturnsToFirstCapture(m1, id, r1, r2);
  }

  /** Toggling twice from the normal state is a maximize/restore cycle. */
  lemma ToggleTwice(m: Manager, id: nat, rect: Rect, rect2: Rect)
    requires Valid(m) && Live(m.windows, id) && !Get(m, id).isMaximized
    ensures ToggleMaximize(ToggleMaximize(m, id, rect), id, rect2) == Restore(Maximize(m, id, rect), id)
  {
  }

  // ---------------------------------------------------------------------
  // Drag and resize gestures, end to end
  // ---------------------------------------------------------------------

  /** After a mouse up, further mouse moves change nothing. */
  lemma MovesAfterUpAreIgnored(m: Manager, clientX: int, clientY: int)
    requires Valid(m)
    ensures MouseMove(MouseUp(m), clientX, clientY) == MouseUp(m)
  {
    var m1 := MouseUp(m);
    var m2 := MouseMove(m1, clientX, clientY);
    assert m2.windows == m1.windows;
  }

  /** A window grabbed at (x0, y0) while it measured `rect` and dragged to
      (x0 + dx, y0 + dy) moves by the cursor's travel, clamped at 0. */
  lemma DragFollowsCursor(m: Manager, id: nat, x0: int, y0: int, rect: Rect, dx: int, dy: int)
    requires Valid(m) && Live(m.windows, id) && !Get(m, id).isMaximized
    ensures var m1 := StartDrag(m, id, x0, y0, rect);
      var m2 := MouseMove(m1, x0 + dx, y0 + dy);
      && Live(m2.windows, id)
      && Get(m2, id).style.left == Px(Max(0, rect.left + dx))
      && Get(m2, id).style.top == Px(Max(0, rect.top + dy))
      && Get(m2, id).style.width == Get(m, id).style.width
      && Get(m2, id).style.height == Get(m, id).style.height
  {
    DragMoves(StartDrag(m, id, x0, y0, rect), id, x0, y0, rect.left, rect.top, dx, dy);
  }

  /** A mouse move on a manager whose window `id` was grabbed at (x0, y0)
      with its corner at (left, top) moves that corner by the cursor's travel. */
  lemma DragMoves(m: Manager, id: nat, x0: int, y0: int, left: int, top: int, dx: int, dy: int)
    requires Valid(m) && Live(m.windows, id)
    requires Get(m, id).gesture == Dragging(x0 - left, y0 - top)
    ensures Live(MouseMove(m, x0 + dx, y0 + dy).windows, id)
    ensures Get(MouseMove(m, x0 + dx, y0 + dy), id).style ==
      Get(m, id).style.(left := Px(Max(0, left + dx)), top := Px(Max(0, top + dy)))
  {
    var p := Pos(m.windows, id);
    var m2 := MouseMove(m, x0 + dx, y0 + dy);
    assert m2.windows[p].id == id;
    PosOfIndex(m2, p);
    DragMoveRecord(m2.windows[p], m.windows[p], x0, y0, left, top, dx, dy);
  }

  /** A window resized from handle `direction`, pressed at (x0, y0) while it
      measured `rect` and moved to (x0 + dx, y0 + dy), takes the rectangle
      `ResizeRect` gives for that travel, as pixels. */
  lemma ResizeFollowsCursor(m: Manager, id: nat, direction: string, x0: int, y0: int, rect: Rect, dx: int, dy: int)
    requires Valid(m) && Live(m.windows, id) && !Get(m, id).isMaximized
    ensures var m1 := StartResize(m, id, direction, x0, y0, rect);
      var m2 := MouseMove(m1, x0 + dx, y0 + dy);
      && Live(m2.windows, id)
      && Get(m2, id).style == PixelStyle(ResizeRect(direction, rect, dx, dy))
  {
    ResizeMoves(StartResize(m, id, direction, x0, y0, rect), id, direction, x0, y0, rect, dx, dy);
  }

  /** A mouse move on a manager whose window `id` is being resized from a
      press at (x0, y0) gives it the resized rectangle for the travel. */
  lemma ResizeMoves(m: Manager, id: nat, direction: string, x0: int, y0: int, rect: Rect, dx: int, dy: int)
    requires Valid(m) && Live(m.windows, id)
    requires Get(m, id).gesture == Resizing(direction, x0, y0, rect)
    ensures Live(MouseMove(m, x0 + dx, y0 + dy).windows, id)
    ensures Get(MouseMove(m, x0 + dx, y0 + dy), id).style == PixelStyle(ResizeRect(direction, rect, dx, dy))
  {
    var p := Pos(m.windows, id);
    var m2 := MouseMove(m, x0 + dx, y0 + dy);
    assert m2.windows[p].id == id;
    PosOfIndex(m2, p);
    ResizeMoveRecord(m2.windows[p], m.windows[p], direction, x0, y0, rect, dx, dy);
  }

  /** Moving a record resized from a press at (x0, y0) by (dx, dy) gives it
      the resized rectangle for that travel. */
  lemma ResizeMoveRecord(moved: WindowRecord, w: WindowRecord, direction: string, x0: int, y0: int, rect: Rect, dx: int, dy: int)
    requires w.gesture == Resizing(direction, x0, y0, rect)
    requires moved == MoveRecord(w, x0 + dx, y0 + dy)
    ensures moved.style == PixelStyle(ResizeRect(direction, rect, dx, dy))
  {
    assert x0 + dx - x0 == dx && y0 + dy - y0 == dy;
  }

  /** Moving a record grabbed at (x0, y0) on a window whose corner was at
      (left, top) by (dx, dy) puts the corner at (left + dx, top + dy),
      clamped at 0. */
  lemma DragMoveRecord(moved: WindowRecord, w: WindowRecord, x0: int, y0: int, left: int, top: int, dx: int, dy: int)
    requires w.gesture == Dragging(x0 - left, y0 - top)
    requires moved == MoveRecord(w, x0 + dx, y0 + dy)
    ensures moved.style == w.style.(left := Px(Max(0, left + dx)), top := Px(Max(0, top + dy)))
  {
    assert x0 + dx - (x0 - left) == left + dx;
    assert y0 + dy - (y0 - top) == top + dy;
  }

  /** Resizing from a handle with `e` but not `w`: the left edge stays and,
      while the width is above its minimum, the right edge follows the cursor. */
  lemma EastEdgeFollowsCursor(direction: string, start: Rect, dx: int, dy: int)
    requires 'e' in direction && 'w' !in direction
    requires start.width + dx >= MinWidth
    ensures var r := ResizeRect(direction, start, dx, dy);
      r.left == start.left && r.left + r.width == start.left + start.width + dx
  {
  }

  /** Resizing from a handle with `w`: while the width is above its minimum,
      the right edge stays where it was. */
  lemma WestResizeKeepsRightEdge(direction: string, start: Rect, dx: int, dy: int)
    requires 'w' in direction
    requires start.width - dx >= MinWidth
    ensures var r := ResizeRect(direction, start, dx, dy);
      r.left + r.width == start.left + start.width
  {
  }

  /** Resizing from a handle with `w` below the minimum width: the width
      stops at the minimum but the left edge keeps following the cursor, so
      the right edge drifts right of where it was. */
  lemma ClampedWestResizeDrifts(direction: string, start: Rect, dx: int, dy: int)
    requires 'w' in direction
    requires start.width - dx < MinWidth
    ensures var r := ResizeRect(direction, start, dx, dy);
      && r.width == MinWidth && r.left == start.left + dx
      && r.left + r.width > start.left + start.width
  {
  }

  /** The same for `n`: the top edge keeps following the cursor while the
      height is held at its minimum, and the bottom edge drifts down. */
  lemma ClampedNorthResizeDrifts(direction: string, start: Rect, dx: int, dy: int)
    requires 'n' in direction
    requires start.height - dy < MinHeight
    ensures var r := ResizeRect(direction, start, dx, dy);
      && r.height == MinHeight && r.top == start.top + dy
      && r.top + r.height > start.top + start.height
  {
  }

  /** No handle pulls two opposite edges: none names both `e` and `w`, or
      both `n` and `s`, and each names at least one edge. */
  lemma HandlesNeverOpposed()
    ensures forall h :: h in Handles ==> !('e' in h && 'w' in h) && !('n' in h && 's' in h)
    ensures forall h :: h in Handles ==> 'n' in h || 'e' in h || 's' in h || 'w' in h
    ensures |Handles| == 8
  {
  }

  // ---------------------------------------------------------------------
  // Sequences of user actions
  // ---------------------------------------------------------------------

  /** One user action, as the listeners of a window (or the document, for
      moves and ups) receive it. `PressWindow` is a mouse-down anywhere in
      the window other than its header or a resize handle;
      `ToggleMaximizeClick` is a click on the maximize button or a double
      click on the header. */
  datatype Event =
    | CreateWindow(url: string, opts: WindowOptions)
    | PressWindow(id: nat)
    | CloseButton(id: nat)
    | MinimizeButton(id: nat)
    | ToggleMaximizeClick(id: nat, rect: Rect)
    | PressHeader(id: nat, clientX: int, clientY: int, rect: Rect)
    | PressHandle(id: nat, direction: string, clientX: int, clientY: int, rect: Rect)
    | Move(clientX: int, clientY: int)
    | Up

  /** The id an action is aimed at, for those aimed at one window. */
  function Target(e: Event): Option<nat> {
    match e
    case PressWindow(id) => Some(id)
    case CloseButton(id) => Some(id)
    case MinimizeButton(id) => Some(id)
    case ToggleMaximizeClick(id, _) => Some(id)
    case PressHeader(id, _, _, _) => Some(id)
    case PressHandle(id, _, _, _, _) => Some(id)
    case _ => None
  }

  /** Applies one action. A control of a window that has been closed is no
      longer in the document, so an action aimed at it has nothing to run.
      A mouse-down on the header or on a handle first runs that element's
      own listener and then bubbles to the window, which focuses it again. */
  function Step(m: Manager, e: Event): (m': Manager)
    requires Valid(m)
    ensures Valid(m')
    ensures m'.zIndex >= m.zIndex && m'.idCounter >= m.idCounter
    ensures Target(e).Some? && !Live(m.windows, Target(e).value) ==> m' == m
  {
    if Target(e).Some? && !Live(m.windows, Target(e).value) then m
    else
      match e
      case CreateWindow(url, opts) => Create(m, url, opts)
      case PressWindow(id) => Focus(m, id)
      case CloseButton(id) => Close(m, id).GetOr(m)
      case MinimizeButton(id) => Minimize(m, id)
      case ToggleMaximizeClick(id, rect) => ToggleMaximize(m, id, rect)
      case PressHeader(id, x, y, rect) => Focus(StartDrag(m, id, x, y, rect), id)
      case PressHandle(id, direction, x, y, rect) => Focus(StartResize(m, id, direction, x, y, rect), id)
      case Move(x, y) => MouseMove(m, x, y)
      case Up => MouseUp(m)
  }

  /** A press on the header of a maximized window starts no drag, yet the
      window is still raised and made active, because the press bubbles to
      the window's own focus listener. */
  lemma HeaderPressOnMaximizedFocuses(m: Manager, id: nat, x: int, y: int, rect: Rect)
    requires Valid(m) && Live(m.windows, id) && Get(m, id).isMaximized
    ensures var r := Step(m, PressHeader(id, x, y, rect));
      && r.active == Some(id) && r.zIndex == m.zIndex + 1
      && |r.windows| == |m.windows|
      && forall j :: 0 <= j < |m.windows| ==> r.windows[j].gesture == m.windows[j].gesture
  {
  }

  /** A press on the header of a normal window starts a drag and consumes two
      z-indices: one from the drag's own focus, one from the bubbled press. */
  lemma HeaderPressRaisesTwice(m: Manager, id: nat, x: int, y: int, rect: Rect)
    requires Valid(m) && Live(m.windows, id) && !Get(m, id).isMaximized
    ensures var r := Step(m, PressHeader(id, x, y, rect));
      && r.active == Some(id) && r.zIndex == m.zIndex + 2
      && Live(r.windows, id)
      && Get(r, id).gesture == Dragging(x - rect.left, y - rect.top)
      && Get(r, id).zIndex == r.zIndex
  {
    var m1 := StartDrag(m, id, x, y, rect);
    var r := Focus(m1, id);
    var p := Pos(m1.windows, id);
    assert r.windows[p].id == id;
    PosOfIndex(r, p);
  }

  /** Applies a sequence of actions in order. */
  function Run(m: Manager, es: seq<Event>): (m': Manager)
    requires Valid(m)
    ensures Valid(m')
    ensures m'.zIndex >= m.zIndex && m'.idCounter >= m.idCounter
    decreases |es|
  {
    if |es| == 0 then m else Run(Step(m, es[0]), es[1..])
  }

  /** Ids are never reused: a window created after any sequence of actions
      gets an id that no window present before that sequence had, whether
      that window has been closed since or not. */
  lemma IdsNeverReused(m: Manager, es: seq<Event>, url: string, opts: WindowOptions)
    requires Valid(m)
    ensures var m1 := Run(m, es); var w := Create(m1, url, opts).windows[|m1.windows|];
      && w.id > m.idCounter
      && forall i :: 0 <= i < |m.windows| ==> m.windows[i].id != w.id
  {
  }

  /** A window created after any sequence of actions is stacked above every
      window present before that sequence. */
  lemma CreatedWindowOnTop(m: Manager, es: seq<Event>, url: string, opts: WindowOptions)
    requires Valid(m)
    ensures var m1 := Run(m, es); var w := Create(m1, url, opts).windows[|m1.windows|];
      forall i :: 0 <= i < |m.windows| ==> m.windows[i].zIndex < w.zIndex
  {
  }

  /** Closing the active window when it is the newest one hands activity to
      the window opened just before it, or to nobody when it was the last. */
  lemma CloseNewestActive(m: Manager)
    requires Valid(m) && |m.windows| > 0
    requires m.active == Some(m.windows[|m.windows| - 1].id)
    ensures var n := |m.windows|; var r := Close(m, m.windows[n - 1].id);
      && r.Some? && r.value.windows == m.windows[..n - 1]
      && r.value.active == (if n == 1 then None else Some(m.windows[n - 2].id))
  {
    var n := |m.windows|;
    var id := m.windows[n - 1].id;
    assert Live(m.windows, id);
    PosOfIndex(m, n - 1);
    var r := Close(m, id).value;
    assert r.windows == m.windows[..n - 1];
    if n > 1 {
      var a := r.active.value;
      var k :| 0 <= k < |r.windows| && r.windows[k].id == a;
      assert r.windows[n - 2].id <= a;
    }
  }

  /** Open three windows, then close the active one three times: activity
      goes 3, 2, 1, none. */
  lemma CloseHandsActivityBack(url: string, opts: WindowOptions)
    ensures var m3 := Create(Create(Create(Init(), url, opts), url, opts), url, opts);
      && m3.active == Some(3)
      && Close(m3, 3).Some? && Close(m3, 3).value.active == Some(2)
      && Close(Close(m3, 3).value, 2).Some?
      && Close(Close(m3, 3).value, 2).value.active == Some(1)
      && Close(Close(Close(m3, 3).value, 2).value, 1).Some?
      && Close(Close(Close(m3, 3).value, 2).value, 1).value.active == None
  {
    var m3 := Create(Create(Create(Init(), url, opts), url, opts), url, opts);
    assert m3.windows[0].id == 1 && m3.windows[1].id == 2 && m3.windows[2].id == 3;
    CloseNewestActive(m3);
    var c1 := Close(m3, 3).value;
    CloseNewestActive(c1);
    var c2 := Close(c1, 2).value;
    CloseNewestActive(c2);
  }
}

=== FILE: window_history.dfy ===
/** What survives any sequence of user actions: a closed window never
    comes back, and a minimized window stays minimized, since the manager
    has no operation that shows a minimized window again. */
module WindowHistory {
  import opened Options
  import opened Windows
  import opened WindowEvents

  /** `r` keeps every record of `m` at its position with its id, keeps every
      minimized one minimized, and any record it adds has a fresh id. */
  predicate KeepsPlaces(m: Manager, r: Manager) {
    && |m.windows| <= |r.windows|
    && (forall j :: 0 <= j < |m.windows| ==> r.windows[j].id == m.windows[j].id)
    && (forall j :: 0 <= j < |m.windows| && m.windows[j].isMinimized ==> r.windows[j].isMinimized)
    && (forall j :: |m.windows| <= j < |r.windows| ==> r.windows[j].id > m.idCounter)
  }

  lemma KeepsPlacesTrans(m1: Manager, m2: Manager, m3: Manager)
    requires KeepsPlaces(m1, m2) && KeepsPlaces(m2, m3) && m1.idCounter <= m2.idCounter
    ensures KeepsPlaces(m1, m3)
  {
  }

  /** Writing back a record that keeps its minimized flag keeps places. */
  lemma PutKeepsPlaces(m: Manager, w: WindowRecord)
    requires Valid(m) && Live(m.windows, w.id)
    requires w.zIndex == Get(m, w.id).zIndex && WellFormed(w)
    requires Get(m, w.id).isMinimized ==> w.isMinimized
    ensures KeepsPlaces(m, Put(m, w))
  {
    var r := Put(m, w);
    forall j | 0 <= j < |m.windows| && m.windows[j].id == w.id
      ensures m.windows[j] == Get(m, w.id)
    {
      PosOfIndex(m, j);
    }
  }

  lemma CreateKeepsPlaces(m: Manager, url: string, opts: WindowOptions)
    requires Valid(m)
    ensures KeepsPlaces(m, Create(m, url, opts))
  {
    var r := Create(m, url, opts);
    forall j | 0 <= j < |m.windows| ensures r.windows[j] == m.windows[j] {
      assert r.windows[j] == r.windows[..|m.windows|][j];
    }
  }

  lemma FocusKeepsPlaces(m: Manager, id: nat)
    requires Valid(m) && Live(m.windows, id)
    ensures KeepsPlaces(m, Focus(m, id))
  {
  }

  lemma MinimizeKeepsPlaces(m: Manager, id: nat)
    requires Valid(m) && Live(m.windows, id)
    ensures KeepsPlaces(m, Minimize(m, id))
  {
    PutKeepsPlaces(m, Get(m, id).(hidden := true, isMinimized := true));
  }

  lemma ToggleKeepsPlaces(m: Manager, id: nat, rect: Rect)
    requires Valid(m) && Live(m.windows, id)
    ensures KeepsPlaces(m, ToggleMaximize(m, id, rect))
  {
    var w := Get(m, id);
    if w.isMaximized {
      PutKeepsPlaces(m, RestoreRecord(w));
    } else {
      PutKeepsPlaces(m, MaximizeRecord(w, rect));
    }
  }

  /** Starting a gesture on a window that is not maximized: the gesture is
      written back and the window focused. */
  lemma GestureKeepsPlaces(m: Manager, id: nat, g: Gesture)
    requires Valid(m) && Live(m.windows, id)
    ensures KeepsPlaces(m, Focus(Put(m, Get(m, id).(gesture := g)), id))
  {
    var w' := Get(m, id).(gesture := g);
    PutKeepsPlaces(m, w');
    var m1 := Put(m, w');
    FocusKeepsPlaces(m1, id);
    KeepsPlacesTrans(m, m1, Focus(m1, id));
  }

  lemma StartDragKeepsPlaces(m: Manager, id: nat, x: int, y: int, rect: Rect)
    requires Valid(m) && Live(m.windows, id)
    ensures KeepsPlaces(m, StartDrag(m, id, x, y, rect))
  {
    if !Get(m, id).isMaximized {
      DragGestureKeepsPlaces(m, id, x, y, rect);
    }
  }

  lemma DragGestureKeepsPlaces(m: Manager, id: nat, x: int, y: int, rect: Rect)
    requires Valid(m) && Live(m.windows, id) && !Get(m, id).isMaximized
    ensures KeepsPlaces(m, StartDrag(m, id, x, y, rect))
  {
    GestureKeepsPlaces(m, id, Dragging(x - rect.left, y - rect.top));
  }

  lemma StartResizeKeepsPlaces(m: Manager, id: nat, direction: string, x: int, y: int, rect: Rect)
    requires Valid(m) && Live(m.windows, id)
    ensures KeepsPlaces(m, StartResize(m, id, direction, x, y, rect))
  {
    if !Get(m, id).isMaximized {
      GestureKeepsPlaces(m, id, Resizing(direction, x, y, rect));
    }
  }

  /** A press on a header: the drag starts, then the bubbled press focuses
      the window. */
  lemma HeaderPressKeepsPlaces(m: Manager, id: nat, x: int, y: int, rect: Rect)
    requires Valid(m) && Live(m.windows, id)
    ensures KeepsPlaces(m, Focus(StartDrag(m, id, x, y, rect), id))
  {
    var m1 := StartDrag(m, id, x, y, rect);
    StartDragKeepsPlaces(m, id, x, y, rect);
    FocusKeepsPlaces(m1, id);
    KeepsPlacesTrans(m, m1, Focus(m1, id));
  }

  /** A press on a resize handle: the resize starts, then the bubbled press
      focuses the window. */
  lemma HandlePressKeepsPlaces(m: Manager, id: nat, direction: string, x: int, y: int, rect: Rect)
    requires Valid(m) && Live(m.windows, id)
    ensures KeepsPlaces(m, Focus(StartResize(m, id, direction, x, y, rect), id))
  {
    var m1 := StartResize(m, id, direction, x, y, rect);
    StartResizeKeepsPlaces(m, id, direction, x, y, rect);
    FocusKeepsPlaces(m1, id);
    KeepsPlacesTrans(m, m1, Focus(m1, id));
  }

  lemma MouseMoveKeepsPlaces(m: Manager, x: int, y: int)
    requires Valid(m)
    ensures KeepsPlaces(m, MouseMove(m, x, y))
  {
  }

  lemma MouseUpKeepsPlaces(m: Manager)
    requires Valid(m)
    ensures KeepsPlaces(m, MouseUp(m))
  {
  }

  /** Every action other than a close keeps places. */
  lemma StepKeepsPlaces(m: Manager, e: Event)
    requires Valid(m) && !e.CloseButton?
    ensures KeepsPlaces(m, Step(m, e))
  {
    if Target(e).Some? && !Live(m.windows, Target(e).value) {
      return;
    }
    match e
    case CreateWindow(url, opts) => CreateKeepsPlaces(m, url, opts);
    case PressWindow(id) => FocusKeepsPlaces(m, id);
    case MinimizeButton(id) => MinimizeKeepsPlaces(m, id);
    case ToggleMaximizeClick(id, rect) => ToggleKeepsPlaces(m, id, rect);
    case PressHeader(id, x, y, rect) => HeaderPressKeepsPlaces(m, id, x, y, rect);
    case PressHandle(id, direction, x, y, rect) => HandlePressKeepsPlaces(m, id, direction, x, y, rect);
    case Move(x, y) => MouseMoveKeepsPlaces(m, x, y);
    case Up => MouseUpKeepsPlaces(m);
  }

  /** A close keeps the other records in order, so a record that stays has
      the same id and minimized flag it had. */
  lemma CloseKeepsRecords(m: Manager, id: nat, k: nat)
    requires Valid(m) && Close(m, id).Some? && k < |Close(m, id).value.windows|
    ensures var q := Pos(m.windows, id); var r := Close(m, id).value;
      r.windows[k] == if k < q then m.windows[k] else m.windows[k + 1]
  {
    var q := Pos(m.windows, id);
    var r := Close(m, id).value;
    assert r.windows == m.windows[..q] + m.windows[q + 1..];
    if k < q {
      assert r.windows[k] == m.windows[..q][k];
    } else {
      assert r.windows[k] == m.windows[q + 1..][k - q];
    }
  }

  /** Every window present after an action was present before it, unless
      its id is above the old id counter. */
  lemma StepIdsOld(m: Manager, e: Event)
    requires Valid(m)
    ensures var r := Step(m, e);
      forall j :: 0 <= j < |r.windows| ==> Live(m.windows, r.windows[j].id) || r.windows[j].id > m.idCounter
  {
    var r := Step(m, e);
    if e.CloseButton? && r != m {
      forall j | 0 <= j < |r.windows| ensures Live(m.windows, r.windows[j].id) {
        CloseKeepsRecords(m, e.id, j);
        var q := Pos(m.windows, e.id);
        if j < q {
          assert m.windows[j].id == r.windows[j].id;
        } else {
          assert m.windows[j + 1].id == r.windows[j].id;
        }
      }
    } else if !e.CloseButton? {
      StepKeepsPlaces(m, e);
      forall j | 0 <= j < |m.windows| ensures Live(m.windows, r.windows[j].id) {
        assert m.windows[j].id == r.windows[j].id;
      }
    }
  }

  /** A window that has been closed never comes back, whatever happens after. */
  lemma {:induction false} ClosedStaysClosed(m: Manager, es: seq<Event>, id: nat)
    requires Valid(m) && !Live(m.windows, id) && id <= m.idCounter
    ensures !Live(Run(m, es).windows, id)
    decreases |es|
  {
    if |es| > 0 {
      var m1 := Step(m, es[0]);
      StepIdsOld(m, es[0]);
      ClosedStaysClosed(m1, es[1..], id);
    }
  }

  /** Closing a window leaves every other one as it was. */
  lemma CloseKeepsMinimized(m: Manager, closed: nat, id: nat)
    requires Valid(m) && Live(m.windows, id) && Get(m, id).isMinimized
    requires Close(m, closed).Some? && Live(Close(m, closed).value.windows, id)
    ensures Get(Close(m, closed).value, id).isMinimized
  {
    var r := Close(m, closed).value;
    var k := Pos(r.windows, id);
    CloseKeepsRecords(m, closed, k);
    var q := Pos(m.windows, closed);
    var i := if k < q then k else k + 1;
    assert m.windows[i].id == id;
    PosOfIndex(m, i);
  }

  /** An action other than a close keeps every minimized window minimized
      and hidden at its place. */
  lemma PlacedStepKeepsMinimized(m: Manager, e: Event, id: nat)
    requires Valid(m) && Live(m.windows, id) && Get(m, id).isMinimized && !e.CloseButton?
    ensures Live(Step(m, e).windows, id)
    ensures Get(Step(m, e), id).isMinimized && Get(Step(m, e), id).hidden
  {
    var r := Step(m, e);
    var p := Pos(m.windows, id);
    StepKeepsPlaces(m, e);
    assert r.windows[p].id == id;
    PosOfIndex(r, p);
  }

  /** The close button of any window never shows a minimized window. */
  lemma CloseStepKeepsMinimized(m: Manager, closed: nat, id: nat)
    requires Valid(m) && Live(m.windows, id) && Get(m, id).isMinimized
    ensures var r := Step(m, CloseButton(closed));
      Live(r.windows, id) ==> Get(r, id).isMinimized && Get(r, id).hidden
  {
    var r := Step(m, CloseButton(closed));
    if Live(m.windows, closed) {
      assert r == Close(m, closed).value;
      if Live(r.windows, id) {
        CloseKeepsMinimized(m, closed, id);
      }
    }
  }

  /** An action never shows a minimized window again: if it is still
      present afterwards, it is still minimized and hidden. */
  lemma StepKeepsMinimized(m: Manager, e: Event, id: nat)
    requires Valid(m) && Live(m.windows, id) && Get(m, id).isMinimized
    ensures var r := Step(m, e);
      Live(r.windows, id) ==> Get(r, id).isMinimized && Get(r, id).hidden
  {
    if e.CloseButton? {
      CloseStepKeepsMinimized(m, e.id, id);
    } else {
      PlacedStepKeepsMinimized(m, e, id);
    }
  }

  /** Minimizing is final: under any later actions, a minimized window is
      either closed or still minimized and hidden. */
  lemma {:induction false} MinimizedStaysMinimized(m: Manager, es: seq<Event>, id: nat)
    requires Valid(m) && Live(m.windows, id) && Get(m, id).isMinimized
    ensures Live(Run(m, es).windows, id) ==>
      Get(Run(m, es), id).isMinimized && Get(Run(m, es), id).hidden
    decreases |es|
  {
    if |es| > 0 {
      var m1 := Step(m, es[0]);
      StepKeepsMinimized(m, es[0], id);
      if Live(m1.windows, id) {
        MinimizedStaysMinimized(m1, es[1..], id);
      } else {
        var k :| 0 <= k < |m.windows| && m.windows[k].id == id;
        ClosedStaysClosed(m1, es[1..], id);
      }
    }
  }
}

=== FILE: windows.dfy ===
/** The floating-window bookkeeping of `WindowManager` (window_manager.js):
    an ordered collection of window records, a z-index counter, an id counter
    and the active window. Every operation is a pure function from manager
    state to manager state; what the browser measures (the container's
    bounding rectangle, cursor coordinates) arrives as a parameter. */
module Windows {
  import opened Options
  import PageTitle

  const InitialZIndex := 1000
  const DefaultWidth := 800
  const DefaultHeight := 600
  const DefaultLeft := 50
  const DefaultTop := 50
  const MinWidth := 300
  const MinHeight := 200

  /** A CSS length as the manager writes it: a pixel count, or the full
      viewport extent that maximizing writes ('100vw' / '100vh'). */
  datatype Length = Px(px: int) | FullViewport

  /** The four inline style properties the manager writes on a window's container. */
  datatype Style = Style(left: Length, top: Length, width: Length, height: Length)

  /** A measured rectangle, as returned by `getBoundingClientRect`. */
  datatype Rect = Rect(left: int, top: int, width: int, height: int)

  /** The `options` argument of `createWindow`; `None` is a missing or falsy entry. */
  datatype WindowOptions = WindowOptions(width: Option<int>, height: Option<int>,
                                         left: Option<int>, top: Option<int>)

  /** The gesture a window is in. `Dragging` keeps the grab offset and
      `Resizing` the handle direction, the cursor position and the rectangle
      at the start of the gesture: the state the source keeps in the closures
      of its temporary document listeners. `isDragging`/`isResizing` are the
      `Dragging?`/`Resizing?` tests. */
  datatype Gesture =
    | Idle
    | Dragging(offsetX: int, offsetY: int)
    | Resizing(direction: string, startX: int, startY: int, start: Rect)

  /** One floating window. `hidden` is `display: none` on its overlay element. */
  datatype WindowRecord = WindowRecord(
    id: nat,
    url: string,
    title: string,
    style: Style,
    zIndex: int,
    hidden: bool,
    isMaximized: bool,
    isMinimized: bool,
    originalBounds: Option<Rect>,
    gesture: Gesture)

  datatype Manager = Manager(windows: seq<WindowRecord>, zIndex: int, idCounter: nat, active: Option<nat>)

  /** The manager as its constructor leaves it. */
  function Init(): Manager {
    Manager([], InitialZIndex, 0, None)
  }

  function Max(a: int, b: int): int {
    if a >= b then a else b
  }

  /** The style that puts a window exactly on rectangle `r`. */
  function PixelStyle(r: Rect): Style {
    Style(Px(r.left), Px(r.top), Px(r.width), Px(r.height))
  }

  /** The style maximizing writes. */
  const MaximizedStyle := Style(Px(0), Px(0), FullViewport, FullViewport)

  /** Some record in `ws` has id `id`. */
  predicate Live(ws: seq<WindowRecord>, id: nat) {
    exists i :: 0 <= i < |ws| && ws[i].id == id
  }

  /** Facts every single record keeps: a maximized window has saved bounds,
      and a window is hidden exactly when it is minimized. */
  predicate WellFormed(w: WindowRecord) {
    && (w.isMaximized ==> w.originalBounds.Some?)
    && w.hidden == w.isMinimized
  }

  /** The manager's invariant: ids are positive, at most the id counter and
      strictly increasing in collection order (creation order); z-indices are
      pairwise distinct, above the initial value and at most the z-index
      counter; the active window, if any, is in the collection. */
  predicate Valid(m: Manager) {
    && m.zIndex >= InitialZIndex
    && Increasing(m.windows)
    && (forall i :: 0 <= i < |m.windows| ==> 1 <= m.windows[i].id <= m.idCounter)
    && (forall i :: 0 <= i < |m.windows| ==> InitialZIndex < m.windows[i].zIndex <= m.zIndex)
    && (forall i, j :: 0 <= i < j < |m.windows| ==> m.windows[i].zIndex != m.windows[j].zIndex)
    && (m.active.Some? ==> Live(m.windows, m.active.value))
    && (forall i :: 0 <= i < |m.windows| ==> WellFormed(m.windows[i]))
  }

  /** The position of the record with id `id`. */
  function Pos(ws: seq<WindowRecord>, id: nat): (i: nat)
    requires Live(ws, id)
    ensures i < |ws| && ws[i].id == id
    ensures forall j :: 0 <= j < i ==> ws[j].id != id
  {
    if ws[0].id == id then 0
    else
      assert Live(ws[1..], id) by {
        var k :| 0 <= k < |ws| && ws[k].id == id;
        assert ws[1..][k - 1].id == id;
      }
      Pos(ws[1..], id) + 1
  }

  /** With distinct ids, the record with id `ws[i].id` is at position `i`. */
  lemma PosOfIndex(m: Manager, i: nat)
    requires Valid(m) && i < |m.windows|
    ensures Pos(m.windows, m.windows[i].id) == i
  {
    var p := Pos(m.windows, m.windows[i].id);
    if p != i {
      assert false;
    }
  }

  /** The live record with id `id`. */
  function Get(m: Manager, id: nat): WindowRecord
    requires Live(m.windows, id)
  {
    m.windows[Pos(m.windows, id)]
  }

  /** Writes `w` back in the place of the record with the same id. A record
      that keeps its id and z-index and is well formed keeps the manager valid. */
  function Put(m: Manager, w: WindowRecord): (m': Manager)
    requires Valid(m) && Live(m.windows, w.id)
    requires w.zIndex == Get(m, w.id).zIndex && WellFormed(w)
    ensures Valid(m')
    ensures m'.zIndex == m.zIndex && m'.idCounter == m.idCounter && m'.active == m.active
    ensures |m'.windows| == |m.windows|
    ensures forall j :: 0 <= j < |m.windows| ==>
      m'.windows[j] == if m.windows[j].id == w.id then w else m.windows[j]
  {
    var p := Pos(m.windows, w.id);
    var ws := m.windows[p := w];
    OthersDiffer(m.windows, p);
    SameShapeValid(m, ws);
    m.(windows := ws)
  }

  /** With increasing ids, no record other than the one at `p` has its id. */
  lemma OthersDiffer(ws: seq<WindowRecord>, p: nat)
    requires Increasing(ws) && p < |ws|
    ensures forall j :: 0 <= j < |ws| && j != p ==> ws[j].id != ws[p].id
  {
    forall j | 0 <= j < |ws| && j != p ensures ws[j].id != ws[p].id {
      if j < p { assert ws[j].id < ws[p].id; } else { assert ws[p].id < ws[j].id; }
    }
  }

  // ---------------------------------------------------------------------
  // createWindow
  // ---------------------------------------------------------------------

  /** `createWindow(pageUrl, options)`: allocates the next id and the next
      z-index, appends a fresh record and makes it the active window. */
  function Create(m: Manager, url: string, opts: WindowOptions): (m': Manager)
    requires Valid(m)
    ensures Valid(m')
    ensures |m'.windows| == |m.windows| + 1 && m'.windows[..|m.windows|] == m.windows
    ensures m'.idCounter == m.idCounter + 1 && m'.zIndex == m.zIndex + 1
    ensures var w := m'.windows[|m.windows|];
      && w.id == m'.idCounter && w.zIndex == m'.zIndex
      && w.id > m.idCounter
      && !Live(m.windows, w.id)
      && (forall j :: 0 <= j < |m.windows| ==> m.windows[j].zIndex < w.zIndex)
      && m'.active == Some(w.id)
    ensures var w := m'.windows[|m.windows|];
      && w.url == url && w.title == PageTitle.Title(url)
      && !w.isMaximized && !w.isMinimized && !w.hidden
      && w.originalBounds == None && w.gesture == Idle
    ensures var s := m'.windows[|m.windows|].style;
      && s.width == Px(opts.width.GetOr(DefaultWidth))
      && s.height == Px(opts.height.GetOr(DefaultHeight))
      && s.left == Px(opts.left.GetOr(DefaultLeft))
      && s.top == Px(opts.top.GetOr(DefaultTop))
  {
    var id := m.idCounter + 1;
    var z := m.zIndex + 1;
    var style := Style(Px(opts.left.GetOr(DefaultLeft)), Px(opts.top.GetOr(DefaultTop)),
                       Px(opts.width.GetOr(DefaultWidth)), Px(opts.height.GetOr(DefaultHeight)));
    var w := WindowRecord(id, url, PageTitle.Title(url), style, z,
                          false, false, false, None, Idle);
    AppendValid(m, w);
    Manager(m.windows + [w], z, id, Some(id))
  }

  /** Appending a well-formed record whose id and z-index exceed both
      counters, and making it active, keeps the manager valid. */
  lemma AppendValid(m: Manager, w: WindowRecord)
    requires Valid(m) && WellFormed(w)
    requires w.id > m.idCounter && w.zIndex > m.zIndex
    ensures !Live(m.windows, w.id)
    ensures Valid(Manager(m.windows + [w], w.zIndex, w.id, Some(w.id)))
  {
    var n := |m.windows|;
    var ws := m.windows + [w];
    assert forall k :: 0 <= k < n ==> ws[k] == m.windows[k];
    assert ws[n] == w;
    forall i, j | 0 <= i < j < |ws| ensures ws[i].id < ws[j].id && ws[i].zIndex != ws[j].zIndex {
      assert ws[i] == m.windows[i];
    }
    forall k | 0 <= k < |ws|
      ensures 1 <= ws[k].id <= w.id && InitialZIndex < ws[k].zIndex <= w.zIndex && WellFormed(ws[k])
    {
      if k < n { assert ws[k] == m.windows[k]; }
    }
    assert Live(ws, w.id);
  }

  // ---------------------------------------------------------------------
  // focusWindow, minimizeWindow
  // ---------------------------------------------------------------------

  /** `focusWindow`: raises the window above every other one and makes it active. */
  function Focus(m: Manager, id: nat): (m': Manager)
    requires Valid(m) && Live(m.windows, id)
    ensures Valid(m')
    ensures m'.active == Some(id) && m'.zIndex == m.zIndex + 1 && m'.idCounter == m.idCounter
    ensures |m'.windows| == |m.windows|
    ensures forall j :: 0 <= j < |m.windows| ==>
      m'.windows[j] == if m.windows[j].id == id then m.windows[j].(zIndex := m'.zIndex) else m.windows[j]
    ensures forall j :: 0 <= j < |m.windows| && m.windows[j].id != id ==>
      m'.windows[j].zIndex < m'.zIndex
  {
    var p := Pos(m.windows, id);
    RaiseValid(m, p);
    Raised(m, p)
  }

  /** The manager after the record at position `p` gets the next z-index and
      becomes active. */
  function Raised(m: Manager, p: nat): Manager
    requires p < |m.windows|
  {
    var z := m.zIndex + 1;
    Manager(m.windows[p := m.windows[p].(zIndex := z)], z, m.idCounter, Some(m.windows[p].id))
  }

  /** Raising a record keeps the manager valid, changes no other record, and
      puts the raised one above all others. */
  lemma RaiseValid(m: Manager, p: nat)
    requires Valid(m) && p < |m.windows|
    ensures var m' := Raised(m, p);
      && Valid(m')
      && |m'.windows| == |m.windows|
      && (forall j :: 0 <= j < |m.windows| ==>
            m'.windows[j] == if m.windows[j].id == m.windows[p].id then m.windows[j].(zIndex := m'.zIndex) else m.windows[j])
      && (forall j :: 0 <= j < |m.windows| && m.windows[j].id != m.windows[p].id ==>
            m'.windows[j].zIndex < m'.zIndex)
  {
    var m' := Raised(m, p);
    assert m'.windows[p].id == m.windows[p].id;
    forall j | 0 <= j < |m.windows|
      ensures m'.windows[j] == if m.windows[j].id == m.windows[p].id then m.windows[j].(zIndex := m'.zIndex) else m.windows[j]
    {
      if j != p {
        assert m.windows[j].id != m.windows[p].id by {
          if j < p { assert m.windows[j].id < m.windows[p].id; }
          else { assert m.windows[p].id < m.windows[j].id; }
        }
      }
    }
  }

  /** `minimizeWindow`: hides the window and marks it minimized, keeping it in
      the collection with its z-index, and leaving the active window alone. */
  function Minimize(m: Manager, id: nat): (m': Manager)
    requires Valid(m) && Live(m.windows, id)
    ensures Valid(m')
    ensures m'.active == m.active && m'.zIndex == m.zIndex && m'.idCounter == m.idCounter
    ensures |m'.windows| == |m.windows|
    ensures forall j :: 0 <= j < |m.windows| && m.windows[j].id != id ==> m'.windows[j] == m.windows[j]
    ensures Live(m'.windows, id)
    ensures Get(m', id) == Get(m, id).(hidden := true, isMinimized := true)
  {
    var w := Get(m, id).(hidden := true, isMinimized := true);
    var m' := Put(m, w);
    assert m'.windows[Pos(m.windows, id)] == w;
    PosOfIndex(m', Pos(m.windows, id));
    m'
  }

  // ---------------------------------------------------------------------
  // toggleMaximize, maximizeWindow, restoreWindow
  // ---------------------------------------------------------------------

  /** `maximizeWindow` on one record: captures `rect` (the current bounding
      rectangle) only when no bounds are saved, then fills the viewport. */
  function MaximizeRecord(w: WindowRecord, rect: Rect): (w': WindowRecord)
    ensures w'.isMaximized && w'.style == MaximizedStyle
    ensures w'.originalBounds.Some?
    ensures w.originalBounds.Some? ==> w'.originalBounds == w.originalBounds
    ensures w.originalBounds.None? ==> w'.originalBounds == Some(rect)
    ensures w' == w.(isMaximized := true, style := MaximizedStyle, originalBounds := w'.originalBounds)
  {
    var saved := if w.originalBounds.None? then Some(rect) else w.originalBounds;
    w.(originalBounds := saved, style := MaximizedStyle, isMaximized := true)
  }

  /** `restoreWindow` on one record: writes the saved bounds back when there
      are any and always clears `isMaximized`; the saved bounds stay saved. */
  function RestoreRecord(w: WindowRecord): (w': WindowRecord)
    ensures !w'.isMaximized && w'.originalBounds == w.originalBounds
    ensures w.originalBounds.Some? ==> w'.style == PixelStyle(w.originalBounds.value)
    ensures w.originalBounds.None? ==> w'.style == w.style
    ensures w' == w.(isMaximized := false, style := w'.style)
  {
    var style := if w.originalBounds.Some? then PixelStyle(w.originalBounds.value) else w.style;
    w.(style := style, isMaximized := false)
  }

  function Maximize(m: Manager, id: nat, rect: Rect): (m': Manager)
    requires Valid(m) && Live(m.windows, id)
    ensures Valid(m')
    ensures m'.active == m.active && m'.zIndex == m.zIndex && m'.idCounter == m.idCounter
    ensures |m'.windows| == |m.windows|
    ensures forall j :: 0 <= j < |m.windows| && m.windows[j].id != id ==> m'.windows[j] == m.windows[j]
    ensures Live(m'.windows, id) && Get(m', id) == MaximizeRecord(Get(m, id), rect)
  {
    var w := MaximizeRecord(Get(m, id), rect);
    var m' := Put(m, w);
    PosOfIndex(m', Pos(m.windows, id));
    m'
  }

  function Restore(m: Manager, id: nat): (m': Manager)
    requires Valid(m) && Live(m.windows, id)
    ensures Valid(m')
    ensures m'.active == m.active && m'.zIndex == m.zIndex && m'.idCounter == m.idCounter
    ensures |m'.windows| == |m.windows|
    ensures forall j :: 0 <= j < |m.windows| && m.windows[j].id != id ==> m'.windows[j] == m.windows[j]
    ensures Live(m'.windows, id) && Get(m', id) == RestoreRecord(Get(m, id))
  {
    var w := RestoreRecord(Get(m, id));
    var m' := Put(m, w);
    PosOfIndex(m', Pos(m.windows, id));
    m'
  }

  /** `toggleMaximize`: restores a maximized window and maximizes any other. */
  function ToggleMaximize(m: Manager, id: nat, rect: Rect): (m': Manager)
    requires Valid(m) && Live(m.windows, id)
    ensures Valid(m') && Live(m'.windows, id)
    ensures Get(m', id).isMaximized == !Get(m, id).isMaximized
    ensures Get(m, id).isMaximized ==> m' == Restore(m, id)
    ensures !Get(m, id).isMaximized ==> m' == Maximize(m, id, rect)
  {
    if Get(m, id).isMaximized then Restore(m, id) else Maximize(m, id, rect)
  }

  // ---------------------------------------------------------------------
  // closeWindow
  // ---------------------------------------------------------------------

  /** `windows.filter(w => w.id !== id)`. */
  function Without(ws: seq<WindowRecord>, id: nat): seq<WindowRecord>
  {
    if |ws| == 0 then []
    else if ws[0].id == id then Without(ws[1..], id)
    else [ws[0]] + Without(ws[1..], id)
  }

  /** Ids strictly increasing. */
  predicate Increasing(ws: seq<WindowRecord>) {
    forall i, j :: 0 <= i < j < |ws| ==> ws[i].id < ws[j].id
  }

  /** With strictly increasing ids, filtering out the id at position `i`
      removes exactly position `i` and keeps the rest in order. */
  lemma {:induction false} WithoutAt(ws: seq<WindowRecord>, i: nat)
    requires Increasing(ws) && i < |ws|
    ensures Without(ws, ws[i].id) == ws[..i] + ws[i + 1..]
    decreases |ws|
  {
    var id := ws[i].id;
    var tail := ws[1..];
    assert forall k :: 0 <= k < |tail| ==> tail[k] == ws[k + 1];
    if i == 0 {
      WithoutAbsent(tail, id);
      assert Without(ws, id) == Without(tail, id);
    } else {
      assert Increasing(tail);
      WithoutAt(tail, i - 1);
      assert Without(ws, id) == [ws[0]] + Without(tail, id);
      assert tail[..i - 1] == ws[1..i];
      assert tail[i..] == ws[i + 1..];
      assert [ws[0]] + ws[1..i] == ws[..i];
    }
  }

  /** Filtering out an id nobody has changes nothing. */
  lemma {:induction false} WithoutAbsent(ws: seq<WindowRecord>, id: nat)
    requires forall k :: 0 <= k < |ws| ==> ws[k].id != id
    ensures Without(ws, id) == ws
    decreases |ws|
  {
    if |ws| > 0 {
      WithoutAbsent(ws[1..], id);
      assert [ws[0]] + ws[1..] == ws;
    }
  }

  /** Filtering out the id at position `p` of a sequence with increasing ids
      shifts every later record down by one position and leaves the removed
      id out. */
  lemma RemoveAt(ws: seq<WindowRecord>, p: nat)
    requires Increasing(ws) && p < |ws|
    ensures |Without(ws, ws[p].id)| == |ws| - 1
    ensures forall k :: 0 <= k < p ==> Without(ws, ws[p].id)[k] == ws[k]
    ensures forall k :: p <= k < |ws| - 1 ==> Without(ws, ws[p].id)[k] == ws[k + 1]
  {
    WithoutAt(ws, p);
    var ws' := ws[..p] + ws[p + 1..];
    assert forall k :: 0 <= k < |ws'| ==> ws'[k] == if k < p then ws[k] else ws[k + 1];
  }

  /** The manager after the record at position `p` is dropped, with
      activity passed on as `closeWindow` does. */
  function Dropped(m: Manager, p: nat): Manager
    requires p < |m.windows|
  {
    var ws := Without(m.windows, m.windows[p].id);
    var active :=
      if m.active == Some(m.windows[p].id) then (if |ws| > 0 then Some(ws[|ws| - 1].id) else None)
      else m.active;
    m.(windows := ws, active := active)
  }

  lemma DroppedValid(m: Manager, p: nat)
    requires Valid(m) && p < |m.windows|
    ensures Valid(Dropped(m, p))
    ensures !Live(Dropped(m, p).windows, m.windows[p].id)
  {
    var ws := m.windows;
    var ws' := Without(ws, ws[p].id);
    DroppedPairs(ws, p);
    DroppedEach(m, p);
    var active := Dropped(m, p).active;
    assert active.Some? ==> Live(ws', active.value) by {
      if active.Some? && m.active != Some(ws[p].id) {
        RemoveAt(ws, p);
        var k :| 0 <= k < |ws| && ws[k].id == m.active.value;
        if k < p { assert ws'[k].id == m.active.value; } else { assert ws'[k - 1].id == m.active.value; }
      }
    }
    assert Dropped(m, p) == m.(windows := ws', active := active);
  }

  /** Every record left after dropping one keeps the per-record facts of `Valid`. */
  lemma DroppedEach(m: Manager, p: nat)
    requires Valid(m) && p < |m.windows|
    ensures forall k :: 0 <= k < |Without(m.windows, m.windows[p].id)| ==>
      1 <= Without(m.windows, m.windows[p].id)[k].id <= m.idCounter
    ensures forall k :: 0 <= k < |Without(m.windows, m.windows[p].id)| ==>
      InitialZIndex < Without(m.windows, m.windows[p].id)[k].zIndex <= m.zIndex
    ensures forall k :: 0 <= k < |Without(m.windows, m.windows[p].id)| ==>
      WellFormed(Without(m.windows, m.windows[p].id)[k])
    ensures !Live(Without(m.windows, m.windows[p].id), m.windows[p].id)
  {
    var ws := m.windows;
    var ws' := Without(ws, ws[p].id);
    RemoveAt(ws, p);
    OthersDiffer(ws, p);
    forall k | 0 <= k < |ws'|
      ensures 1 <= ws'[k].id <= m.idCounter && InitialZIndex < ws'[k].zIndex <= m.zIndex
      ensures WellFormed(ws'[k]) && ws'[k].id != ws[p].id
    {
      if k < p { assert ws'[k] == ws[k]; } else { assert ws'[k] == ws[k + 1]; }
    }
  }

  /** Dropping a record keeps ids increasing and z-indices distinct. */
  lemma DroppedPairs(ws: seq<WindowRecord>, p: nat)
    requires Increasing(ws) && p < |ws|
    requires forall i, j :: 0 <= i < j < |ws| ==> ws[i].zIndex != ws[j].zIndex
    ensures Increasing(Without(ws, ws[p].id))
    ensures forall k, l :: 0 <= k < l < |Without(ws, ws[p].id)| ==>
      Without(ws, ws[p].id)[k].zIndex != Without(ws, ws[p].id)[l].zIndex
  {
    var ws' := Without(ws, ws[p].id);
    RemoveAt(ws, p);
    forall k, l | 0 <= k < l < |ws'|
      ensures ws'[k].id < ws'[l].id && ws'[k].zIndex != ws'[l].zIndex
    {
      var k0 := if k < p then k else k + 1;
      var l0 := if l < p then l else l + 1;
      assert ws'[k] == ws[k0] && ws'[l] == ws[l0] && k0 < l0;
    }
  }

  /** In a sequence with increasing ids the last record has the largest id. */
  lemma LastIsNewest(ws: seq<WindowRecord>)
    requires Increasing(ws)
    ensures |ws| > 0 ==> forall k :: 0 <= k < |ws| ==> ws[k].id <= ws[|ws| - 1].id
  {
  }

  /** `closeWindow`: drops the record and, if it was the active window,
      passes activity to the most recently created remaining window (none
      when the collection is now empty). Closing a window that is no longer
      in the collection fails, as its element is no longer in the document
      and `removeChild` throws; the result is then `None`. */
  function Close(m: Manager, id: nat): (r: Option<Manager>)
    requires Valid(m)
    ensures r.None? <==> !Live(m.windows, id)
    ensures r.Some? ==> Valid(r.value)
    ensures r.Some? ==> var m' := r.value; var p := Pos(m.windows, id);
      && m'.windows == m.windows[..p] + m.windows[p + 1..]
      && !Live(m'.windows, id)
      && m'.zIndex == m.zIndex && m'.idCounter == m.idCounter
    ensures r.Some? && m.active != Some(id) ==> r.value.active == m.active
    ensures r.Some? && m.active == Some(id) ==>
      && (r.value.active.None? <==> |r.value.windows| == 0)
      && (r.value.active.Some? ==>
            forall k :: 0 <= k < |r.value.windows| ==> r.value.windows[k].id <= r.value.active.value)
  {
    if !Live(m.windows, id) then None
    else
      var p := Pos(m.windows, id);
      var m' := Dropped(m, p);
      DroppedValid(m, p);
      WithoutAt(m.windows, p);
      LastIsNewest(m'.windows);
      Some(m')
  }

  // ---------------------------------------------------------------------
  // Drag and resize gestures
  // ---------------------------------------------------------------------

  /** The resize handles a window carries, by compass direction. */
  const Handles: seq<string> := ["n", "ne", "e", "se", "s", "sw", "w", "nw"]

  /** `startDrag` on a mouse-down at (clientX, clientY) while the container
      measures `rect`: ignored on a maximized window; otherwise the window
      enters `Dragging` with the grab offset and is focused. */
  function StartDrag(m: Manager, id: nat, clientX: int, clientY: int, rect: Rect): (m': Manager)
    requires Valid(m) && Live(m.windows, id)
    ensures Valid(m') && Live(m'.windows, id)
    ensures Get(m, id).isMaximized ==> m' == m
    ensures |m'.windows| == |m.windows| && m'.idCounter == m.idCounter
    ensures forall j :: 0 <= j < |m.windows| && m.windows[j].id != id ==> m'.windows[j] == m.windows[j]
    ensures !Get(m, id).isMaximized ==>
      && Get(m', id) == Get(m, id).(gesture := Dragging(clientX - rect.left, clientY - rect.top), zIndex := m'.zIndex)
      && m'.zIndex == m.zIndex + 1
      && Get(m', id).gesture == Dragging(clientX - rect.left, clientY - rect.top)
      && Get(m', id).style == Get(m, id).style
      && m'.active == Some(id)
      && forall j :: 0 <= j < |m'.windows| && m'.windows[j].id != id ==>
           m'.windows[j].zIndex < Get(m', id).zIndex
  {
    var w := Get(m, id);
    if w.isMaximized then m
    else Focus(Put(m, w.(gesture := Dragging(clientX - rect.left, clientY - rect.top))), id)
  }

  /** `startResize` from handle `direction` on a mouse-down at (clientX,
      clientY) while the container measures `rect`: ignored on a maximized
      window; otherwise the window enters `Resizing` and is focused. */
  function StartResize(m: Manager, id: nat, direction: string, clientX: int, clientY: int, rect: Rect): (m': Manager)
    requires Valid(m) && Live(m.windows, id)
    ensures Valid(m') && Live(m'.windows, id)
    ensures Get(m, id).isMaximized ==> m' == m
    ensures |m'.windows| == |m.windows| && m'.idCounter == m.idCounter
    ensures forall j :: 0 <= j < |m.windows| && m.windows[j].id != id ==> m'.windows[j] == m.windows[j]
    ensures !Get(m, id).isMaximized ==>
      && Get(m', id) == Get(m, id).(gesture := Resizing(direction, clientX, clientY, rect), zIndex := m'.zIndex)
      && m'.zIndex == m.zIndex + 1
      && Get(m', id).gesture == Resizing(direction, clientX, clientY, rect)
      && Get(m', id).style == Get(m, id).style
      && m'.active == Some(id)
      && forall j :: 0 <= j < |m'.windows| && m'.windows[j].id != id ==>
           m'.windows[j].zIndex < Get(m', id).zIndex
  {
    var w := Get(m, id);
    if w.isMaximized then m
    else Focus(Put(m, w.(gesture := Resizing(direction, clientX, clientY, rect))), id)
  }

  /** The rectangle a resize move produces, from the handle direction, the
      rectangle at the start of the gesture and the cursor's travel since
      then. A direction with `e` grows the width with the travel; one with
      `w` shrinks it and moves the left edge by the travel (checked after
      `e`, so `w` wins should both appear); likewise `s` and `n` for height
      and top. Width and height are then raised to their minimums, while
      left and top keep the raw travel. */
  function ResizeRect(direction: string, start: Rect, dx: int, dy: int): (r: Rect)
    ensures r.width >= MinWidth && r.height >= MinHeight
    ensures r.left == (if 'w' in direction then start.left + dx else start.left)
    ensures r.top == (if 'n' in direction then start.top + dy else start.top)
    ensures 'w' in direction ==> r.width == Max(MinWidth, start.width - dx)
    ensures 'e' in direction && 'w' !in direction ==> r.width == Max(MinWidth, start.width + dx)
    ensures 'e' !in direction && 'w' !in direction ==> r.width == Max(MinWidth, start.width)
    ensures 'n' in direction ==> r.height == Max(MinHeight, start.height - dy)
    ensures 's' in direction && 'n' !in direction ==> r.height == Max(MinHeight, start.height + dy)
    ensures 's' !in direction && 'n' !in direction ==> r.height == Max(MinHeight, start.height)
  {
    var width := if 'e' in direction then start.width + dx else start.width;
    var (width, left) := if 'w' in direction then (start.width - dx, start.left + dx) else (width, start.left);
    var height := if 's' in direction then start.height + dy else start.height;
    var (height, top) := if 'n' in direction then (start.height - dy, start.top + dy) else (height, start.top);
    Rect(left, top, Max(MinWidth, width), Max(MinHeight, height))
  }

  /** What one document-level mouse move at (clientX, clientY) does to one
      window: a dragging window follows the cursor, clamped to non-negative
      left/top; a resizing window takes the resized rectangle; an idle
      window is untouched. */
  function MoveRecord(w: WindowRecord, clientX: int, clientY: int): (w': WindowRecord)
    ensures w' == w.(style := w'.style)
    ensures w.gesture.Idle? ==> w' == w
    ensures w.gesture.Dragging? ==>
      && w'.style.width == w.style.width && w'.style.height == w.style.height
      && w'.style.left.Px? && w'.style.left.px >= 0
      && w'.style.top.Px? && w'.style.top.px >= 0
    ensures w.gesture.Resizing? ==>
      && w'.style.width.Px? && w'.style.width.px >= MinWidth
      && w'.style.height.Px? && w'.style.height.px >= MinHeight
  {
    match w.gesture
    case Idle => w
    case Dragging(offsetX, offsetY) =>
      w.(style := w.style.(left := Px(Max(0, clientX - offsetX)), top := Px(Max(0, clientY - offsetY))))
    case Resizing(direction, startX, startY, start) =>
      w.(style := PixelStyle(ResizeRect(direction, start, clientX - startX, clientY - startY)))
  }

  /** Applies `MoveRecord` to every record, in order. */
  function MoveAll(ws: seq<WindowRecord>, clientX: int, clientY: int): (r: seq<WindowRecord>)
    ensures |r| == |ws|
    ensures forall j :: 0 <= j < |ws| ==> r[j] == MoveRecord(ws[j], clientX, clientY)
  {
    if |ws| == 0 then []
    else [MoveRecord(ws[0], clientX, clientY)] + MoveAll(ws[1..], clientX, clientY)
  }

  /** Ends the gesture of every record, in order. */
  function EndAll(ws: seq<WindowRecord>): (r: seq<WindowRecord>)
    ensures |r| == |ws|
    ensures forall j :: 0 <= j < |ws| ==> r[j] == ws[j].(gesture := Idle)
  {
    if |ws| == 0 then []
    else [ws[0].(gesture := Idle)] + EndAll(ws[1..])
  }

  /** A collection whose records keep their ids, z-indices and well-formedness
      position by position keeps the manager valid. */
  lemma SameShapeValid(m: Manager, ws: seq<WindowRecord>)
    requires Valid(m) && |ws| == |m.windows|
    requires forall j :: 0 <= j < |ws| ==>
      ws[j].id == m.windows[j].id && ws[j].zIndex == m.windows[j].zIndex && WellFormed(ws[j])
    ensures Valid(m.(windows := ws))
  {
    if m.active.Some? {
      var k :| 0 <= k < |m.windows| && m.windows[k].id == m.active.value;
      assert ws[k].id == m.active.value;
    }
  }

  /** A document-level mouse move: every window in a gesture reacts; nothing
      but styles changes. */
  function MouseMove(m: Manager, clientX: int, clientY: int): (m': Manager)
    requires Valid(m)
    ensures Valid(m')
    ensures m'.zIndex == m.zIndex && m'.idCounter == m.idCounter && m'.active == m.active
    ensures |m'.windows| == |m.windows|
    ensures forall j :: 0 <= j < |m.windows| ==>
      m'.windows[j] == MoveRecord(m.windows[j], clientX, clientY)
  {
    var ws := MoveAll(m.windows, clientX, clientY);
    SameShapeValid(m, ws);
    m.(windows := ws)
  }

  /** A document-level mouse up: every gesture ends, styles stay. */
  function MouseUp(m: Manager): (m': Manager)
    requires Valid(m)
    ensures Valid(m')
    ensures m'.zIndex == m.zIndex && m'.idCounter == m.idCounter && m'.active == m.active
    ensures |m'.windows| == |m.windows|
    ensures forall j :: 0 <= j < |m.windows| ==>
      m'.windows[j] == m.windows[j].(gesture := Idle)
  {
    var ws := EndAll(m.windows);
    SameShapeValid(m, ws);
    m.(windows := ws)
  }
}
